=== FILE: README.md ===
# Portfolio scroll logic, modelled in Dafny

This project models the non-visual logic of a single-page portfolio site built
with React. It covers:

- the scroll-driven image sequence behind the hero: frame URLs, scroll position
  to frame, preloading and the loading spinner, cover-fit drawing;
- the navigation bar's active-section detection and click handling;
- the auto-scroll hook that eases the page from the hero to its target;
- the text splitting used for per-character animation;
- the horizontal panel strip's rounding of scroll progress to a panel;
- the hero's particle placement, typing effect and opacity clamp;
- the contact form's field updates and its submit, success and reset
  lifecycle.

Browser callbacks are modelled as events. Timers firing, images reporting,
wheel and touch gestures, animation frames and effect cleanups each become an
event of a `Step` function. The DOM enters as plain data, such as a map from
element id to its bounding rectangle. Numbers are Dafny `real` or `int`.
`Math.floor` is `.Floor`, and `Math.round(x)` is `(x + 0.5).Floor`. Strings
are `seq<char>`, sequences of Unicode scalar values; JavaScript strings are
sequences of UTF-16 code units, and the two agree for text inside the Basic
Multilingual Plane.

| file | module | models |
|---|---|---|
| common.dfy | `Common` | `Option`, min/max/clamp, `Math.round`, integer ranges |
| frame_url.dfy | `FrameUrl` | `getFrameUrl`: `padStart`, first-occurrence `replace` |
| frame_index.dfy | `FrameIndex` | the scroll handler of the image sequence |
| frame_preload.dfy | `FramePreload` | the preload effect, `loadedCount` and `isLoading` |
| frame_draw.dfy | `FrameDraw` | the draw guard, cover-fit, the resize handler |
| navigation.dfy | `Navigation` | `handleScroll`, `handleClick`, highlighting |
| auto_scroll.dfy | `AutoScroll` | `easeInOutCubic`, `startAutoScroll`, `animate`, gestures |
| text_split.dfy | `TextSplit` | `splitText` and the `SplitText` spans |
| scroll_bridge.dfy | `ScrollBridge` | panel rounding, snap points, counter |
| hero.dfy | `Hero` | `getParticlePosition`, typing effect, opacity clamp |
| contact.dfy | `Contact` | `handleChange`, `handleSubmit`, the submit guard |

Behaviours worth knowing, each stated as a lemma:

- **The loading flag is cleared only by a successful load.** `onerror` counts
  towards `loadedCount` but never compares it with `min(10, N)`.
  - If the report that reaches the threshold is an error, the spinner stays
    until a later frame loads.
  - With at most ten frames there is no later frame, so a sequence whose last
    eager report is an error keeps its spinner for good
    (`NoLoadKeepsLoading`, `SingleFailedFrameExample`).
  - One might expect the spinner to go once `min(10, N)` frames have
    settled; the code does not do that, and the model follows the code.
- **`String.prototype.replace` with a string pattern replaces only the first
  `frame_000`** (`FrameUrlExampleFirstOnly`).
- **A cancelled animation frame leaves the scroll stuck.** The wheel effect's
  cleanup cancels the pending animation frame. It runs whenever
  `isAutoScrolling` changes, and that includes the change to `true` made by
  every start, once React commits it. A cancelled frame is modelled as the
  `CancelFrame` event. After it, `isAutoScrolling` can never clear again and
  no gesture can trigger (`CancelledScrollIsStuck`). So, read as written,
  the cleanup of the start's own commit cancels the scroll within the first
  frames. A scroll completes (`OneFullScroll`) only when its duration is
  shorter than that delay, which the default of 3000 ms is not.
- **Text typed while the success overlay shows is wiped** by the 2000 ms
  reset (`TypingDuringSuccessIsLost`).

## Model

| member | source | states |
|---|---|---|
| `Common.ClampReal` | components/ImageSequenceCanvas.tsx:76 | the clamp idiom returns a value inside `[lo, hi]`; it is the input when that is inside, and the nearer bound otherwise |
| `Common.Round` | components/HorizontalScrollBridge.tsx:94 | `Math.round` returns an integer within one half of its argument |
| `FrameUrl.Digits` | components/ImageSequenceCanvas.tsx:28 | `String(index)` is a non-empty string of decimal digits with no leading zero |
| `FrameUrl.PadStart` | components/ImageSequenceCanvas.tsx:28 | `padStart` reaches the width by putting fill characters in front of the unchanged string; a string already that long is returned as is |
| `FrameUrl.IndexFrom` | components/ImageSequenceCanvas.tsx:29 | the search finds the first occurrence of the pattern at or after the start position, and reports none only when there is none |
| `FrameUrl.ReplaceFirst` | components/ImageSequenceCanvas.tsx:29 | `replace` with a string pattern splices the replacement over the first occurrence only; a string without the pattern comes back unchanged |
| `FrameUrl.FrameUrl` | components/ImageSequenceCanvas.tsx:27-30 | a base URL without `frame_000` gives the same URL for every frame |
| `FrameUrl.PaddedIndexRoundTrip` | components/ImageSequenceCanvas.tsx:28 | for indices 0..999 the padded index is exactly three digits and reads back as the index |
| `FrameUrl.FrameUrlZero` | components/ImageSequenceCanvas.tsx:27-30 | the URL of frame 0 is the base URL itself |
| `FrameUrl.FrameUrlShape` | components/ImageSequenceCanvas.tsx:27-30 | the frame URL keeps the base URL's length and every character outside the three digits after the first `frame_`, and those digits are the padded index |
| `FrameUrl.FrameUrlDecodes` | components/ImageSequenceCanvas.tsx:27-30 | the frame index can be read back from the URL (round trip) |
| `FrameUrl.FrameUrlInjective` | components/ImageSequenceCanvas.tsx:27-30 | distinct frames 0..999 never share a URL |
| `FrameUrl.FrameUrlExampleSeven` | components/ImageSequenceCanvas.tsx:27-30 | `frame_000.webp` becomes `frame_007.webp` for frame 7 |
| `FrameUrl.FrameUrlExampleFirstOnly` | components/ImageSequenceCanvas.tsx:29 | with two placeholders only the first is replaced |
| `FrameIndex.ScrollProgress` | components/ImageSequenceCanvas.tsx:74-76 | progress lies in `[0, 1]`; it is 0 before the range and 1 after it; inside the range it is the fraction of the range scrolled |
| `FrameIndex.FrameOfProgress` | components/ImageSequenceCanvas.tsx:77 | the frame is a valid index whose floor bounds bracket the scaled progress; full progress gives the last frame; no frames gives -1 |
| `FrameIndex.FrameAt` | components/ImageSequenceCanvas.tsx:72-79 | the frame lies in `[0, N)`; it is 0 before and `N-1` after the range; inside the range frame `r` is shown exactly on the `r`-th of `N-1` equal slices |
| `FrameIndex.ProgressMonotone` | components/ImageSequenceCanvas.tsx:75-76 | scrolling further never lowers the progress |
| `FrameIndex.FrameOfProgressMonotone` | components/ImageSequenceCanvas.tsx:77 | a larger progress through the range never selects an earlier frame |
| `FrameIndex.FrameAtMonotone` | components/ImageSequenceCanvas.tsx:75-77 | scrolling further never selects an earlier frame |
| `FrameIndex.HeroScrollExample` | components/ImageSequenceCanvas.tsx:75-77 | 191 frames over 1000 px: half-way shows frame 95, past the end frame 190 |
| `FramePreload.EagerCount` | components/ImageSequenceCanvas.tsx:55 | the eager batch is `min(10, N)`: ten frames, or all of them when there are fewer |
| `FramePreload.Request` | components/ImageSequenceCanvas.tsx:38-52 | creating images adds one pending slot per requested frame and leaves the other slots as they were |
| `FramePreload.Mount` | components/ImageSequenceCanvas.tsx:33-66 | on mount exactly frames `0 .. min(10, N)-1` are requested, the timer is armed, the counter is 0 and the spinner shows |
| `FramePreload.Settle` | components/ImageSequenceCanvas.tsx:42-50 | a report of a pending frame marks it loaded or failed, leaves every other slot alone and adds one to the counter, for `onerror` as for `onload`; any other report changes nothing; the flag clears exactly on a successful load that brings the counter to `min(10, N)`, and is never set again |
| `FramePreload.EagerThenLazy` | components/ImageSequenceCanvas.tsx:55-63 | the eager batch followed by frames `10 .. N-1` is exactly `0 .. N-1`, in order |
| `FramePreload.LoadRemaining` | components/ImageSequenceCanvas.tsx:60-66 | the timer requests the remaining frames so that all of `0 .. N-1` are requested, and is spent; frames already reported keep their outcome and the new ones start pending; counter and flag are untouched |
| `FramePreload.Step` | components/ImageSequenceCanvas.tsx:33-69 | every event keeps the state well-formed; a load or error report of a pending frame stores its outcome and adds one to the counter; the flag only goes down and only on a successful load; requests only grow, and only when the armed timer fires; teardown disarms the timer and changes nothing else; the timer never touches an outcome already reported |
| `FramePreload.Run` | components/ImageSequenceCanvas.tsx:33-69 | every reachable state is well-formed: the counter equals the number of reported images and a cleared flag is backed by a load |
| `FramePreload.AllFramesRequestedOnce` | components/ImageSequenceCanvas.tsx:55-63 | after the timer fires every frame `0 .. N-1` has been requested, each exactly once |
| `FramePreload.NoLazyAfterTeardown` | components/ImageSequenceCanvas.tsx:66-68 | once the timer is cleared no further frame is ever requested |
| `FramePreload.TeardownBeforeTimer` | components/ImageSequenceCanvas.tsx:66-68 | an unmount before 500 ms leaves only the eager batch requested |
| `FramePreload.LoadingNeverReturns` | components/ImageSequenceCanvas.tsx:42-50 | once cleared, the loading flag stays cleared |
| `FramePreload.NoLoadKeepsLoading` | components/ImageSequenceCanvas.tsx:48-50 | without a successful load the spinner never clears, however many errors arrive |
| `FramePreload.AllFailedStillLoading` | components/ImageSequenceCanvas.tsx:42-50 | a state in which every requested frame failed is still loading |
| `FramePreload.SingleFailedFrameExample` | components/ImageSequenceCanvas.tsx:44-50 | one frame that fails reaches the counter threshold and still keeps the spinner |
| `FrameDraw.CoverFit` | components/ImageSequenceCanvas.tsx:106-122 | the drawn rectangle keeps the image's aspect ratio, covers the canvas, matches it on one axis and is centred on both |
| `FrameDraw.Draw` | components/ImageSequenceCanvas.tsx:88-133 | a frame that is missing, incomplete or broken, or a missing container, leaves the canvas unchanged; otherwise the canvas takes the container's size and shows that frame at exactly the `CoverFit` rectangle |
| `FrameDraw.SelectedFrameDrawable` | components/ImageSequenceCanvas.tsx:72-94 | once every image has loaded with a positive width, the frame the scroll position selects always passes the draw guard; with no frames the selected index -1 never does |
| `FrameDraw.Resize` | components/ImageSequenceCanvas.tsx:136-148 | a resize gives the canvas the container's size and clears it |
| `FrameDraw.WiderFit` | components/ImageSequenceCanvas.tsx:111-115 | when the canvas is relatively wider, the image scaled to the canvas width keeps its aspect ratio and is at least as tall as the canvas |
| `FrameDraw.TallerFit` | components/ImageSequenceCanvas.tsx:116-121 | otherwise the image scaled to the canvas height keeps its aspect ratio and is at least as wide as the canvas |
| `FrameDraw.DrawKeepsCover` | components/ImageSequenceCanvas.tsx:103-126 | whatever the canvas shows always covers it, across draws and resizes |
| `FrameDraw.BrokenFrameKeepsPicture` | components/ImageSequenceCanvas.tsx:94 | a frame whose image has zero natural width leaves the previous picture in place |
| `FrameDraw.CoverFitExample` | components/ImageSequenceCanvas.tsx:106-122 | a 16:9 image on a square canvas is drawn full height and cropped at the sides |
| `Navigation.FirstHit` | components/Navigation.tsx:36-48 | the result is the first section, in order, whose element straddles the 200 px line; sections without an element are skipped; none means no section does |
| `Navigation.OnScroll` | components/Navigation.tsx:27-53 | the bar counts as scrolled exactly past 50 px; while `scrollY < 100` the hero is active; otherwise the first hit wins; with no hit the hero is active within the first screen and the value is left unchanged below it |
| `Navigation.HandleClick` | components/Navigation.tsx:62-70 | a click always closes the menu; `#` scrolls to the top; any other href scrolls to its element when it exists and does nothing otherwise |
| `Navigation.ActiveIsKnown` | components/Navigation.tsx:27-53 | the active section is one with a dot or is left unchanged, and within the first screen it always has a dot |
| `Navigation.EarlierSectionWins` | components/Navigation.tsx:38-47 | when `about` straddles the line it wins over the later sections |
| `Navigation.OneDotHighlighted` | components/Navigation.tsx:251 | at most one dot is lit |
| `Navigation.ItemMatchesDot` | components/Navigation.tsx:102 | a bar button is lit exactly when the dot of the same section is |
| `Navigation.HeroLightsNoItem` | components/Navigation.tsx:102 | while the hero is active no bar button is lit |
| `Navigation.NavItemHighlighted` | components/Navigation.tsx:102 | a bar button is lit exactly when its `#` link points at the active section |
| `Navigation.DotHighlighted` | components/Navigation.tsx:251 | a dot is lit exactly when the active section has a dot and the dot's link leads to it (`#` for the hero) |
| `Navigation.ClickLightsItsSection` | components/Navigation.tsx:62-70 | clicking a bar button whose section exists closes the menu and scrolls to the section; once that section straddles the probe line first, the scroll handler lights its button and its dot |
| `Navigation.HomeClickLightsHero` | components/Navigation.tsx:62-70 | the home dot scrolls to the top, where only the hero's dot is lit and no bar button |
| `AutoScroll.Ease` | hooks/use-auto-scroll.ts:14-16 | the easing maps `[0, 1]` into `[0, 1]`; it stays below 1/2 on the first half and at or above 1/2 on the second |
| `AutoScroll.EaseFixedPoints` | hooks/use-auto-scroll.ts:14-16 | the easing fixes 0, 1/2 and 1 |
| `AutoScroll.EaseSymmetric` | hooks/use-auto-scroll.ts:14-16 | the second half mirrors the first: `ease(1 - t) = 1 - ease(t)` |
| `AutoScroll.EaseMonotone` | hooks/use-auto-scroll.ts:14-16 | eased progress never moves backwards |
| `AutoScroll.CubeMonotone` | hooks/use-auto-scroll.ts:15 | the cube in the easing is monotone |
| `AutoScroll.StartAutoScroll` | hooks/use-auto-scroll.ts:29-42 | nothing happens while scrolling, once triggered, when disabled, or within 50 px of the target; otherwise the trigger is set and an animation from the current position to the target begins |
| `AutoScroll.Progress` | hooks/use-auto-scroll.ts:45-46 | progress is at most 1, non-negative for elapsed time, equal to `elapsed / duration` before the duration has passed, and 1 exactly when it has |
| `AutoScroll.ProgressMonotone` | hooks/use-auto-scroll.ts:45-46 | more elapsed time never gives less progress |
| `AutoScroll.Position` | hooks/use-auto-scroll.ts:49 | the scrolled-to position lies between the start and the target for eased progress in `[0, 1]`, and is the target at progress 1 |
| `AutoScroll.AnimateFrame` | hooks/use-auto-scroll.ts:44-62 | every frame with a timestamp at or after the animation's start time scrolls between the start and the target (an earlier timestamp is not bounded); the frame after the duration lands on the target, ends the scroll, keeps the trigger and arms the reset timer |
| `AutoScroll.AnimationMovesForward` | hooks/use-auto-scroll.ts:44-50 | of two frames of one animation at or after its start, the later one never scrolls less far |
| `AutoScroll.AnimationHalfway` | hooks/use-auto-scroll.ts:44-50 | half-way through the duration the page is half-way to the target |
| `AutoScroll.WheelGesture` | hooks/use-auto-scroll.ts:67-80 | a wheel turn does nothing unless the hook is enabled and it is downward near the top while idle and untriggered; a qualifying turn has its default prevented and starts the animation to the target, or moves nothing when the target is within 50 px |
| `AutoScroll.SwipeGesture` | hooks/use-auto-scroll.ts:90-112 | the same for an upward swipe of more than 30 px near the top |
| `AutoScroll.Step` | hooks/use-auto-scroll.ts:29-131 | a direct `startAutoScroll()` call behaves exactly as the start routine, with no default to prevent; a gesture's default is prevented exactly when an enabled hook sees a downward wheel or a 30 px swipe at the top while idle and untriggered; the trigger is set only by a start and cleared only by the reset timer; a frame after the duration ends the scroll, keeps the trigger and arms the reset, an earlier frame or one with nothing pending changes nothing; a cancel drops the pending frame and nothing else |
| `AutoScroll.Run` | hooks/use-auto-scroll.ts:29-118 | every reachable state is well-formed: a pending frame belongs to a started scroll that ends on the target |
| `AutoScroll.OneFullScroll` | hooks/use-auto-scroll.ts:29-64 | when no frame is cancelled before `t0 + duration`: a wheel turn at the top starts a scroll, the frame after the duration lands on the target and ends the scroll, and the run of those three events with the reset timer returns the mounted state |
| `AutoScroll.CancelledScrollIsStuck` | hooks/use-auto-scroll.ts:82-87 | a `CancelFrame` during any running scroll leaves the hook scrolling and triggered, with no frame pending, whatever events follow |
| `AutoScroll.DisabledNeverStarts` | hooks/use-auto-scroll.ts:67-118 | a disabled hook never starts scrolling |
| `TextSplit.SplitChars` | hooks/use-gsap.ts:42-44 | the character split has one one-character piece per character, and concatenating them gives the text back |
| `TextSplit.SplitWords` | hooks/use-gsap.ts:45 | the word split has one piece more than there are spaces, no piece contains a space, and joining with single spaces gives the text back |
| `TextSplit.Split` | hooks/use-gsap.ts:41-46 | `splitText` in character mode gives one piece per character, the i-th piece being exactly the i-th character, and the pieces concatenate to the text; in word mode space-free pieces that join with spaces to the text |
| `TextSplit.SplitRoundTrip` | hooks/use-gsap.ts:41-46 | both modes give the text back; the default mode is words; an empty text splits into no characters and one empty word |
| `TextSplit.JoinThenSplit` | hooks/use-gsap.ts:45 | space-free words joined with spaces split back into exactly those words |
| `TextSplit.Spans` | components/HorizontalScrollBridge.tsx:45-57 | one single-character span per character, none of them showing a plain space |
| `TextSplit.SpansRenderSplit` | components/HorizontalScrollBridge.tsx:47-53 | each span shows its character with a space made unbreakable, and reading the spans back gives the text |
| `ScrollBridge.ActivePanel` | components/HorizontalScrollBridge.tsx:93-94 | the panel is within one half of `progress * (N-1)`, as `Math.round` gives; for progress in `[0, 1]` it is a valid index; progress 0 gives the first panel and 1 the last |
| `ScrollBridge.ActivePanelNearest` | components/HorizontalScrollBridge.tsx:94 | no panel lies closer to the scaled progress than the active one |
| `ScrollBridge.SnapPointSelectsPanel` | components/HorizontalScrollBridge.tsx:87-94 | each snap point `k / (N-1)` selects panel `k` |
| `ScrollBridge.ActivePanelMonotone` | components/HorizontalScrollBridge.tsx:94 | more progress never selects an earlier panel |
| `ScrollBridge.OnUpdate` | components/HorizontalScrollBridge.tsx:92-102 | the computed panel is `ActivePanel(progress, N)` and is stored exactly when it differs from the current one; the bar width is `progress * 100` %, within 0..100 % |
| `ScrollBridge.UpdateSettles` | components/HorizontalScrollBridge.tsx:92-97 | after an update the stored panel is the rounded one, an update at the same progress stores nothing, and a later update stores again exactly when the progress rounds to another panel |
| `ScrollBridge.CounterInRange` | components/HorizontalScrollBridge.tsx:333-362 | the counter reads between 1/3 and 3/3, and exactly one dot is lit: the active panel's |
| `Hero.Seed` | components/HeroSection.tsx:11-12 | a seed is a fraction in `[0, 0.99]` in steps of 1/100 |
| `Hero.ParticlePosition` | components/HeroSection.tsx:9-17 | particle 0 starts at the origin |
| `Hero.ParticleInWindow` | components/HeroSection.tsx:9-17 | on a window of non-negative size every particle starts within `[0, 0.99]` of the width and of the height |
| `Hero.ParticlePeriodic` | components/HeroSection.tsx:11-12 | indices `i` and `i + 100` give the same position |
| `Hero.XSeedRecoversIndex` | components/HeroSection.tsx:11 | the x seed determines the index modulo 100 |
| `Hero.ParticlesDistinct` | components/HeroSection.tsx:136-137 | the 20 particles start at 20 different horizontal positions on a window of positive width |
| `Hero.Prefix` | components/HeroSection.tsx:94 | `slice(0, n)` is a prefix of the text of length `min(n, length)` |
| `Hero.Tick` | components/HeroSection.tsx:93-98 | a tick shows the prefix of the counter's length, advances the counter, and stops the interval once the counter passes the length; a stopped interval does nothing |
| `Hero.TypingAfter` | components/HeroSection.tsx:91-101 | after `n` ticks the first `n-1` characters show; after length + 1 ticks the whole text shows and the interval is cleared |
| `Hero.TypingShowsPrefixes` | components/HeroSection.tsx:91-99 | each tick shows one more character than the one before |
| `Hero.BackgroundOpacity` | components/HeroSection.tsx:77-79 | the stored opacity lies in `[0, 1]` and equals the animated value whenever that already does |
| `Contact.Set` | components/ContactSection.tsx:48-50 | a change sets the named field and leaves the other two unchanged |
| `Contact.SetLaws` | components/ContactSection.tsx:48-50 | writing a field's own value changes nothing, and the last write to a field wins |
| `Contact.InitialIsIdle` | components/ContactSection.tsx:19-25 | the form starts empty and idle with the button enabled |
| `Contact.Step` | components/ContactSection.tsx:28-260 | a change updates one field; focusing a field records it as the focused one and blurring clears it, with nothing else changed; a submit starts the send only for an enabled button and a valid form; the send's end shows success and arms a reset; a reset empties the form and hides the overlay |
| `Contact.RunKeepsValid` | components/ContactSection.tsx:28-46 | the form is submitting exactly while the send runs, and a success overlay always has a reset pending |
| `Contact.SubmitLifecycle` | components/ContactSection.tsx:28-46 | submit, send end and reset take a filled form through submitting and success back to the empty initial state |
| `Contact.NoDoubleSubmit` | components/ContactSection.tsx:275 | while the button is disabled a submit changes nothing |
| `Contact.EmptyFieldBlocksSubmit` | components/ContactSection.tsx:205-265 | a form with an empty required field is never submitted |
| `Contact.ResetsClearSuccess` | components/ContactSection.tsx:40-43 | once every pending reset has fired the overlay is hidden and the form is empty |
| `Contact.TypingDuringSuccessIsLost` | components/ContactSection.tsx:40-43 | text typed while the success overlay shows is cleared by the reset |

## Left out

- Rendering: JSX markup, CSS, framer-motion transforms, springs and staggers.
  They are library behaviour with no logic of the site's own.
- GSAP timelines, `ScrollTrigger`, `useGSAP`, `createScrollTimeline` and
  `createBatchAnimation` (hooks/use-gsap.ts). These are library calls. Only
  the progress value a trigger reports is modelled.
- Browser APIs: `window`, `document`, `requestAnimationFrame`, `setTimeout`,
  `setInterval`, image decoding and `drawImage`. They become parameters or
  events.
- Floating point: the model computes with exact reals and unbounded integers,
  so `NaN`, infinities and rounding error are not modelled.
- The static content sections and the page layout: components/AboutSection.tsx,
  components/ExperienceSection.tsx, components/CoolingSection.tsx,
  components/TransitionSection.tsx, app/layout.tsx and app/page.tsx. They
  hold data arrays and animation set-up only.
- FrameIndex.ScrollProgress: requires `scrollStart < scrollEnd`. The component
  divides by the range without a guard, and callers do pass a zero range
  before their first measurement (a height of 0). That case yields `NaN` or
  infinities, which the real-number model cannot express.
- FrameIndex.FrameAt: has the same `scrollStart < scrollEnd` precondition.
- FrameUrl.FrameUrlShape: stated for indices up to 999 only. From 1000 on,
  `padStart` adds nothing, so the URL grows by one character per extra digit.
  `PadStart`'s own contract covers that case.
- FrameDraw.Draw: takes the two guards (before scheduling the animation frame
  and inside it) as one check at drawing time. It also treats a missing
  canvas or 2D context like a missing container, and an image with zero
  natural height as drawing nothing.
- FramePreload: models one mount. A re-run of the effect (a new `baseUrl` or
  frame count) resets the counter to 0 and requests a new eager batch, but
  keeps the `isLoading` state as it was: nothing sets it back to true.
  Re-runs, and reports from the previous run's images that still reach the
  shared counter, are not modelled.
- AutoScroll: requires a positive duration. The `onScrollStart` and
  `onScrollEnd` callbacks are omitted; they are caller-supplied and absent
  here.
- AutoScroll.Step: the effect cleanup's `cancelAnimationFrame` is an event
  (`CancelFrame`), not a consequence of `isAutoScrolling` changing, because
  React's commit and effect scheduling are not modelled. The model therefore
  also admits runs in which no cancel arrives.
- AutoScroll.OneFullScroll: the run it describes contains no `CancelFrame`
  before `t0 + duration`. In the source this holds only for a duration
  shorter than the delay before the start's commit runs the wheel effect's
  cleanup. With the default 3000 ms it does not hold, and the scroll is left
  as `CancelledScrollIsStuck` describes.
- Contact: the email syntax check of the `type="email"` input is a parameter
  of the submit event. The toast and the focus highlight styling are not
  modelled; the focused field itself is.
- ScrollBridge: the panel effect re-runs whenever `activePanel` changes,
  which recreates the triggers. That is GSAP state and is not modelled.
- TextSplit.SplitChars / TextSplit.Spans: a character is a code point. For a
  character outside the Basic Multilingual Plane, `split('')` yields its two
  surrogate halves and the component renders two spans; the model yields one
  piece and one span. This is not modelled.
- Hero: the scroll-linked content opacity, scale, offset and blur are
  framer-motion keyframe interpolation. Only the clamp applied to the stored
  background opacity is modelled.

=== FILE: auto_scroll.dfy ===
/** The auto-scroll hook (hooks/use-auto-scroll.ts). A downward wheel turn or
    swipe near the top of the page starts one eased scroll to `targetScroll`;
    a trigger flag keeps it from starting again until 500 ms after the
    animation ends. Time, the scroll position and the browser callbacks
    (`requestAnimationFrame`, `setTimeout`, wheel and touch events, effect
    cleanup) enter as the events of `Step`. */
module AutoScroll {
  import opened Common

  const DefaultDurationMs: real := 3000.0
  /** A start closer than this to the target does nothing. */
  const MinDistance: real := 50.0
  /** Gestures trigger only above this scroll position. */
  const TopZone: real := 100.0
  /** A swipe must travel more than this many pixels upwards. */
  const SwipeThreshold: real := 30.0
  const RetriggerDelayMs: real := 500.0

  function Cube(x: real): real { x * x * x }

  /** `easeInOutCubic`. */
  function Ease(t: real): (r: real)
    ensures 0.0 <= t <= 1.0 ==> 0.0 <= r <= 1.0
    ensures 0.0 <= t < 0.5 ==> r < 0.5
    ensures 0.5 <= t ==> 0.5 <= r
  {
    if t < 0.5 then
      if t >= 0.0 then CubeBounds(2.0 * t); 4.0 * Cube(t) else 4.0 * Cube(t)
    else
      var u := -2.0 * t + 2.0;
      assert u <= 1.0;
      if u >= 0.0 then CubeBounds(u); 1.0 - Cube(u) / 2.0
      else CubeMonotone(u, 1.0); 1.0 - Cube(u) / 2.0
  }

  /** For `0 <= x`: `x^3` is non-negative, and below 1 (at most 1) when `x` is. */
  lemma CubeBounds(x: real)
    requires 0.0 <= x
    ensures 0.0 <= Cube(x)
    ensures x < 1.0 ==> Cube(x) < 1.0
    ensures x <= 1.0 ==> Cube(x) <= 1.0
  {
    if x <= 1.0 {
      assert x * x <= 1.0 * x;
      assert x * x * x <= 1.0 * x * x;
    }
  }

  lemma {:induction false} CubeMonotone(a: real, b: real)
    requires a <= b
    ensures Cube(a) <= Cube(b)
  {
    var q := a * a + a * b + b * b;
    var m := a + b / 2.0;
    assert q == m * m + 3.0 * (b * b) / 4.0;
    SquareNonNegative(m);
    SquareNonNegative(b);
    assert Cube(b) - Cube(a) == (b - a) * q;
  }

  lemma SquareNonNegative(x: real)
    ensures x * x >= 0.0
  {
    if x < 0.0 {
      assert x * x == (-x) * (-x);
    }
  }

  /** The curve runs from 0 to 1 through 1/2 at the midpoint. */
  lemma EaseFixedPoints()
    ensures Ease(0.0) == 0.0 && Ease(0.5) == 0.5 && Ease(1.0) == 1.0
  {
  }

  /** The second half mirrors the first. */
  lemma EaseSymmetric(t: real)
    ensures Ease(1.0 - t) == 1.0 - Ease(t)
  {
    if t < 0.5 {
      assert -2.0 * (1.0 - t) + 2.0 == 2.0 * t;
      CubeDouble(t);
    } else if t > 0.5 {
      assert -2.0 * t + 2.0 == 2.0 * (1.0 - t);
      CubeDouble(1.0 - t);
    }
  }

  lemma CubeDouble(u: real)
    ensures Cube(2.0 * u) == 8.0 * Cube(u)
  {
    assert (2.0 * u) * (2.0 * u) == 4.0 * (u * u);
  }

  /** Eased progress never moves backwards. */
  lemma EaseMonotone(a: real, b: real)
    requires a <= b
    ensures Ease(a) <= Ease(b)
  {
    if b < 0.5 {
      CubeMonotone(a, b);
    } else if 0.5 <= a {
      CubeMonotone(-2.0 * b + 2.0, -2.0 * a + 2.0);
    }
  }

  /** A running animation: where it started, how far it goes, when it began. */
  datatype Animation = Animation(startPosition: real, distance: real, startTime: real)

  /** The hook's options and state. `frame` is the pending animation frame,
      `resetPending` the 500 ms timer that clears `hasTriggered`. */
  datatype Hook = Hook(
    targetScroll: real,
    duration: real,
    enabled: bool,
    isAutoScrolling: bool,
    hasTriggered: bool,
    frame: Option<Animation>,
    resetPending: bool)

  function Mount(targetScroll: real, duration: real, enabled: bool): Hook
  {
    Hook(targetScroll, duration, enabled, false, false, None, false)
  }

  /** The reachable states: a pending frame belongs to a started scroll that
      ends on the target, and the re-trigger timer runs only after a scroll
      has ended. */
  predicate Valid(h: Hook)
  {
    && h.duration > 0.0
    && (h.isAutoScrolling ==> h.hasTriggered)
    && (h.frame.Some? ==>
          && h.isAutoScrolling
          && h.frame.value.distance > MinDistance
          && h.frame.value.startPosition + h.frame.value.distance == h.targetScroll)
    && (h.resetPending ==> h.hasTriggered && !h.isAutoScrolling && h.frame.None?)
  }

  /** `startAutoScroll` called at scroll position `scrollY` and time `now`. */
  function StartAutoScroll(h: Hook, scrollY: real, now: real): (r: Hook)
    requires Valid(h)
    ensures Valid(r)
    ensures h.isAutoScrolling || h.hasTriggered || !h.enabled || h.targetScroll - scrollY <= MinDistance ==> r == h
    ensures !(h.isAutoScrolling || h.hasTriggered || !h.enabled || h.targetScroll - scrollY <= MinDistance) ==>
      && r.hasTriggered && r.isAutoScrolling
      && r.frame == Some(Animation(scrollY, h.targetScroll - scrollY, now))
  {
    if h.isAutoScrolling || h.hasTriggered || !h.enabled then h
    else
      var distance := h.targetScroll - scrollY;
      if distance <= MinDistance then h
      else h.(hasTriggered := true, isAutoScrolling := true, frame := Some(Animation(scrollY, distance, now)))
  }

  /** `Math.min(elapsed / duration, 1)`. */
  function Progress(elapsed: real, duration: real): (p: real)
    requires duration > 0.0
    ensures p <= 1.0
    ensures elapsed >= 0.0 ==> 0.0 <= p
    ensures p == 1.0 <==> elapsed >= duration
    ensures elapsed < duration ==> p * duration == elapsed
  {
    QuotientFacts(elapsed, duration);
    MinReal(elapsed / duration, 1.0)
  }

  /** More elapsed time never means less progress. */
  lemma ProgressMonotone(e1: real, e2: real, duration: real)
    requires duration > 0.0 && e1 <= e2
    ensures Progress(e1, duration) <= Progress(e2, duration)
  {
    DivMonotone(e1, e2, duration);
  }

  lemma QuotientFacts(a: real, d: real)
    requires d > 0.0
    ensures a >= 0.0 ==> a / d >= 0.0
    ensures a / d >= 1.0 <==> a >= d
  {
    var q := a / d;
    assert q * d == a;
    if q < 0.0 {
      assert q * d < 0.0 * d;
    }
    if q < 1.0 {
      assert q * d < 1.0 * d;
    } else {
      assert q * d >= 1.0 * d;
    }
  }

  /** One animation frame at time `now`: the position scrolled to, and the
      new state. The last frame (progress 1) ends the scroll and arms the
      re-trigger timer; the trigger flag itself stays set. */
  function AnimateFrame(h: Hook, now: real): (r: (Hook, Option<real>))
    requires Valid(h)
    ensures Valid(r.0)
    ensures h.frame.None? ==> r == (h, None)
    ensures h.frame.Some? ==> r.1.Some?
    ensures h.frame.Some? && now - h.frame.value.startTime >= h.duration ==>
      && r.1 == Some(h.targetScroll)
      && !r.0.isAutoScrolling && r.0.hasTriggered && r.0.resetPending && r.0.frame.None?
    ensures h.frame.Some? && now - h.frame.value.startTime < h.duration ==> r.0 == h
    ensures h.frame.Some? && now >= h.frame.value.startTime ==>
      h.frame.value.startPosition <= r.1.value <= h.targetScroll
    ensures h.frame.Some? ==> r.1 == Some(PositionAt(h.frame.value, h.duration, now))
  {
    match h.frame
    case None => (h, None)
    case Some(a) =>
      var progress := Progress(now - a.startTime, h.duration);
      var position := PositionAt(a, h.duration, now);
      if progress < 1.0 then (h, Some(position))
      else (h.(isAutoScrolling := false, frame := None, resetPending := true), Some(position))
  }

  /** Where animation `a` scrolls the page at time `now`. */
  function PositionAt(a: Animation, duration: real, now: real): real
    requires duration > 0.0 && a.distance >= 0.0
  {
    Position(a.startPosition, a.distance, Ease(Progress(now - a.startTime, duration)))
  }

  /** The scroll only moves forward: of two frames of one animation, both at
      or after its start, the later one is never further up the page. */
  lemma {:induction false} AnimationMovesForward(h: Hook, t1: real, t2: real)
    requires Valid(h) && h.frame.Some?
    requires h.frame.value.startTime <= t1 <= t2
    ensures AnimateFrame(h, t1).1.value <= AnimateFrame(h, t2).1.value
  {
    var a := h.frame.value;
    var p1 := Progress(t1 - a.startTime, h.duration);
    var p2 := Progress(t2 - a.startTime, h.duration);
    ProgressMonotone(t1 - a.startTime, t2 - a.startTime, h.duration);
    var e1, e2 := Ease(p1), Ease(p2);
    EaseMonotone(p1, p2);
    PositionMonotone(a.startPosition, a.distance, e1, e2);
  }

  lemma PositionMonotone(start: real, d: real, e1: real, e2: real)
    requires d >= 0.0 && e1 <= e2
    ensures Position(start, d, e1) <= Position(start, d, e2)
  {
    MulMonotone(e1, e2, d);
    assert d * e1 <= d * e2;
  }

  /** Half-way through the duration the page is half-way to the target: the
      curve is followed, not just bounded. */
  lemma {:induction false} AnimationHalfway(h: Hook)
    requires Valid(h) && h.frame.Some?
    ensures AnimateFrame(h, h.frame.value.startTime + h.duration / 2.0).1
      == Some(h.frame.value.startPosition + h.frame.value.distance / 2.0)
  {
    var a := h.frame.value;
    var e := a.startTime + h.duration / 2.0 - a.startTime;
    assert e == h.duration / 2.0;
    HalfProgress(h.duration);
    EaseFixedPoints();
    assert PositionAt(a, h.duration, a.startTime + h.duration / 2.0) == a.startPosition + a.distance * 0.5;
  }

  /** Half the duration is half the progress. */
  lemma HalfProgress(d: real)
    requires d > 0.0
    ensures Progress(d / 2.0, d) == 0.5
  {
    var p := Progress(d / 2.0, d);
    assert p * d == d / 2.0;
    if p < 0.5 {
      MulStrict(p, 0.5, d);
    } else if p > 0.5 {
      MulStrict(0.5, p, d);
    }
  }

  /** `startPosition + distance * easedProgress`: moving a fraction in
      `[0, 1]` of a non-negative distance stays between the start and the
      end, and the whole fraction reaches the end. */
  function Position(start: real, d: real, e: real): (p: real)
    requires d >= 0.0
    ensures 0.0 <= e <= 1.0 ==> start <= p <= start + d
    ensures e == 1.0 ==> p == start + d
  {
    if 0.0 <= e <= 1.0 then
      MulMonotone(e, 1.0, d);
      MulMonotone(0.0, e, d);
      start + d * e
    else
      start + d * e
  }

  /** The wheel handler fires the start only for a downward turn near the top
      while idle and untriggered. */
  predicate WheelTriggers(h: Hook, deltaY: real, scrollY: real)
  {
    deltaY > 0.0 && scrollY < TopZone && !h.isAutoScrolling && !h.hasTriggered
  }

  /** The touch-move handler: the finger has moved more than 30 px up since
      the touch started. */
  predicate SwipeTriggers(h: Hook, touchStartY: real, touchY: real, scrollY: real)
  {
    touchStartY - touchY > SwipeThreshold && scrollY < TopZone && !h.isAutoScrolling && !h.hasTriggered
  }

  datatype Event =
    | Start(scrollY: real, now: real)
    | Wheel(deltaY: real, scrollY: real, now: real)
    | Swipe(touchStartY: real, touchY: real, scrollY: real, now: real)
    | Frame(now: real)
    | ResetTimer
    | CancelFrame

  /** The new state and whether the event's default scrolling was prevented. */
  function Step(h: Hook, e: Event): (r: (Hook, bool))
    requires Valid(h)
    ensures Valid(r.0)
    ensures r.1 <==> (h.enabled && (
      || (e.Wheel? && WheelTriggers(h, e.deltaY, e.scrollY))
      || (e.Swipe? && SwipeTriggers(h, e.touchStartY, e.touchY, e.scrollY))))
    ensures r.0.hasTriggered != h.hasTriggered ==>
      if h.hasTriggered then e.ResetTimer? && h.resetPending else e.Start? || r.1
    ensures e.ResetTimer? && h.resetPending ==> !r.0.hasTriggered
    ensures e.Frame? && h.frame.Some? && e.now - h.frame.value.startTime >= h.duration ==>
      !r.0.isAutoScrolling && r.0.hasTriggered && r.0.resetPending && r.0.frame.None?
    ensures e.Frame? && (h.frame.None? || e.now - h.frame.value.startTime < h.duration) ==> r.0 == h
    ensures e.CancelFrame? ==> r.0 == h.(frame := None)
    ensures e.Start? ==> r == (StartAutoScroll(h, e.scrollY, e.now), false)
  {
    match e
    case Start(y, now) => (StartAutoScroll(h, y, now), false)
    case Wheel(dy, y, now) =>
      // the listener exists only while the hook is enabled
      if h.enabled && WheelTriggers(h, dy, y) then (StartAutoScroll(h, y, now), true) else (h, false)
    case Swipe(y0, y1, y, now) =>
      if h.enabled && SwipeTriggers(h, y0, y1, y) then (StartAutoScroll(h, y, now), true) else (h, false)
    case Frame(now) => (AnimateFrame(h, now).0, false)
    case ResetTimer =>
      if h.resetPending then (h.(hasTriggered := false, resetPending := false), false) else (h, false)
    case CancelFrame => (h.(frame := None), false)
  }

  /** A wheel turn: nothing happens unless the hook is enabled and the turn
      qualifies; a qualifying turn always has its default prevented, and
      starts the animation from the current position to the target unless
      the target is within 50 px, in which case the page does not move at
      all. */
  lemma {:induction false} WheelGesture(h: Hook, deltaY: real, scrollY: real, now: real)
    requires Valid(h)
    ensures var r := Step(h, Wheel(deltaY, scrollY, now));
      && (!h.enabled || !WheelTriggers(h, deltaY, scrollY) ==> r == (h, false))
      && (h.enabled && WheelTriggers(h, deltaY, scrollY) && h.targetScroll - scrollY > MinDistance ==>
            r.1 && r.0.isAutoScrolling && r.0.hasTriggered
            && r.0.frame == Some(Animation(scrollY, h.targetScroll - scrollY, now)))
      && (h.enabled && WheelTriggers(h, deltaY, scrollY) && h.targetScroll - scrollY <= MinDistance ==>
            r == (h, true))
  {
  }

  /** The same for a swipe, measured from where the touch started. */
  lemma {:induction false} SwipeGesture(h: Hook, touchStartY: real, touchY: real, scrollY: real, now: real)
    requires Valid(h)
    ensures var r := Step(h, Swipe(touchStartY, touchY, scrollY, now));
      && (!h.enabled || !SwipeTriggers(h, touchStartY, touchY, scrollY) ==> r == (h, false))
      && (h.enabled && SwipeTriggers(h, touchStartY, touchY, scrollY) && h.targetScroll - scrollY > MinDistance ==>
            r.1 && r.0.isAutoScrolling && r.0.hasTriggered
            && r.0.frame == Some(Animation(scrollY, h.targetScroll - scrollY, now)))
      && (h.enabled && SwipeTriggers(h, touchStartY, touchY, scrollY) && h.targetScroll - scrollY <= MinDistance ==>
            r == (h, true))
  {
  }

  function Run(h: Hook, events: seq<Event>): (r: Hook)
    requires Valid(h)
    ensures Valid(r)
    decreases |events|
  {
    if |events| == 0 then h else Run(Step(h, events[0]).0, events[1..])
  }

  /** A whole scroll, when no frame is cancelled: a wheel turn at the top
      starts it, a frame after the duration lands on the target and ends the
      scroll, and the re-trigger timer makes the hook ready again. */
  lemma {:induction false} OneFullScroll(target: real, duration: real, t0: real, t1: real)
    requires duration > 0.0 && target > MinDistance && t1 - t0 >= duration
    ensures var h0 := Mount(target, duration, true);
      var h1 := Step(h0, Wheel(1.0, 0.0, t0));
      var h2 := Step(h1.0, Frame(t1));
      && h1.1 && h1.0.isAutoScrolling && h1.0.hasTriggered
      && AnimateFrame(h1.0, t1).1 == Some(target)
      && !h2.0.isAutoScrolling && h2.0.hasTriggered
      && Run(h0, [Wheel(1.0, 0.0, t0), Frame(t1), ResetTimer]) == h0
  {
    var h0 := Mount(target, duration, true);
    var h1 := Step(h0, Wheel(1.0, 0.0, t0)).0;
    var h2 := Step(h1, Frame(t1)).0;
    var h3 := Step(h2, ResetTimer).0;
    var events := [Wheel(1.0, 0.0, t0), Frame(t1), ResetTimer];
    assert events[1..] == [Frame(t1), ResetTimer];
    assert events[1..][1..] == [ResetTimer];
    assert events[1..][1..][1..] == [];
    assert Run(h3, []) == h3;
    assert Run(h2, [ResetTimer]) == h3;
    assert Run(h1, [Frame(t1), ResetTimer]) == h3;
    assert Run(h0, events) == h3;
    assert h3 == h0;
  }

  /** A cancelled animation frame (the effect cleanup's `cancelAnimationFrame`)
      leaves a running scroll stuck for good: no later event clears
      `isAutoScrolling`, so no gesture can trigger again. */
  lemma {:induction false} CancelledScrollIsStuck(h: Hook, events: seq<Event>)
    requires Valid(h) && h.isAutoScrolling
    ensures var r := Run(h, [CancelFrame] + events);
      r.isAutoScrolling && r.hasTriggered && r.frame.None?
  {
    var all := [CancelFrame] + events;
    assert all[0] == CancelFrame && all[1..] == events;
    StaysStuck(Step(h, CancelFrame).0, events);
  }

  /** A scroll without a pending frame never ends. */
  lemma {:induction false} StaysStuck(h: Hook, events: seq<Event>)
    requires Valid(h) && h.isAutoScrolling && h.frame.None?
    ensures var r := Run(h, events);
      r.isAutoScrolling && r.hasTriggered && r.frame.None?
    decreases |events|
  {
    if |events| > 0 {
      StaysStuck(Step(h, events[0]).0, events[1..]);
    }
  }

  /** A disabled hook never prevents a gesture and never starts. */
  lemma {:induction false} DisabledNeverStarts(h: Hook, events: seq<Event>)
    requires Valid(h) && !h.enabled && !h.isAutoScrolling && h.frame.None?
    ensures !Run(h, events).isAutoScrolling
    decreases |events|
  {
    if |events| > 0 {
      DisabledNeverStarts(Step(h, events[0]).0, events[1..]);
    }
  }
}

=== FILE: common.dfy ===
/** Small shared vocabulary: an optional value and the JavaScript `Math.min` /
    `Math.max` / `Math.floor` / `Math.round` helpers over unbounded numbers. */
module Common {

  /** A value that may be absent (a DOM lookup that returns `null`, an empty
      array slot). */
  datatype Option<+T> = None | Some(value: T)

  function MinInt(a: int, b: int): int { if a <= b then a else b }

  function MaxInt(a: int, b: int): int { if a >= b then a else b }

  function MinReal(a: real, b: real): real { if a <= b then a else b }

  function MaxReal(a: real, b: real): real { if a >= b then a else b }

  /** `Math.max(lo, Math.min(hi, x))`, the clamp idiom used throughout. */
  function ClampReal(lo: real, hi: real, x: real): (r: real)
    requires lo <= hi
    ensures lo <= r <= hi
    ensures lo <= x <= hi ==> r == x
    ensures x <= lo ==> r == lo
    ensures x >= hi ==> r == hi
  {
    MaxReal(lo, MinReal(hi, x))
  }

  /** `Math.round`: the nearest integer, halves rounded towards +infinity. */
  function Round(x: real): (r: int)
    ensures x - 0.5 < r as real <= x + 0.5
  {
    (x + 0.5).Floor
  }

  /** Rounding never reverses an inequality. */
  lemma RoundMonotone(a: real, b: real)
    requires a <= b
    ensures Round(a) <= Round(b)
  {
    var ra, rb := Round(a), Round(b);
    assert ra as real <= a + 0.5 <= b + 0.5 < rb as real + 1.0;
    assert ra < rb + 1;
  }

  /** The half-open integer range `[lo, hi)` in increasing order. */
  function Range(lo: int, hi: int): (r: seq<int>)
    ensures |r| == if lo <= hi then hi - lo else 0
    ensures forall k :: 0 <= k < |r| ==> r[k] == lo + k
    ensures forall i :: i in r <==> lo <= i < hi
    decreases hi - lo
  {
    if lo >= hi then [] else [lo] + Range(lo + 1, hi)
  }

  /** Multiplying by a non-negative factor keeps an inequality. */
  lemma MulMonotone(a: real, b: real, c: real)
    requires a <= b && c >= 0.0
    ensures a * c <= b * c
  {
  }

  lemma MulStrict(a: real, b: real, c: real)
    requires a < b && c > 0.0
    ensures a * c < b * c
  {
  }

  /** Dividing by a positive number keeps an inequality. */
  lemma DivMonotone(a: real, b: real, d: real)
    requires a <= b && d > 0.0
    ensures a / d <= b / d
  {
    var qa, qb := a / d, b / d;
    assert qa * d == a && qb * d == b;
    assert (qb - qa) * d == qb * d - qa * d == b - a;
    FactorSign(qb - qa, d);
  }

  /** A product with a positive factor that is non-negative has a
      non-negative other factor. */
  lemma FactorSign(x: real, d: real)
    requires d > 0.0 && x * d >= 0.0
    ensures x >= 0.0
  {
    if x < 0.0 {
      MulStrict(x, 0.0, d);
    }
  }
}

=== FILE: contact.dfy ===
/** The contact form (components/ContactSection.tsx). Typing updates one field
    of the form record. Submitting marks the form as submitting, a simulated
    send of 1500 ms later marks it as sent, and 2000 ms after that the fields
    are cleared and the success overlay is hidden. Timers are events: the send
    completing and the reset timer firing. The browser's own submit guard is
    modelled too: the button is disabled while submitting, and all three
    fields are required. */
module Contact {
  import opened Common

  const SendDelayMs: nat := 1500
  const ResetDelayMs: nat := 2000

  /** The three inputs, by their `name` attribute. */
  datatype Field = Name | Email | Message

  datatype Form = Form(name: string, email: string, message: string)

  const EmptyForm: Form := Form("", "", "")

  function Get(f: Form, field: Field): string
  {
    match field
    case Name => f.name
    case Email => f.email
    case Message => f.message
  }

  /** `{ ...prev, [name]: value }`: the named field takes the new value and
      the other two keep theirs. */
  function Set(f: Form, field: Field, value: string): (r: Form)
    ensures Get(r, field) == value
    ensures forall g :: g != field ==> Get(r, g) == Get(f, g)
  {
    match field
    case Name => f.(name := value)
    case Email => f.(email := value)
    case Message => f.(message := value)
  }

  /** Two forms with the same fields are the same form. */
  lemma {:induction false} FormExtensional(a: Form, b: Form)
    requires forall g :: Get(a, g) == Get(b, g)
    ensures a == b
  {
    assert Get(a, Name) == Get(b, Name);
    assert Get(a, Email) == Get(b, Email);
    assert Get(a, Message) == Get(b, Message);
  }

  /** Writing back a field's current value changes nothing, and a later
      write to the same field overrides an earlier one. */
  lemma {:induction false} SetLaws(f: Form, field: Field, v: string, w: string)
    ensures Set(f, field, Get(f, field)) == f
    ensures Set(Set(f, field, v), field, w) == Set(f, field, w)
  {
    FormExtensional(Set(f, field, Get(f, field)), f);
    FormExtensional(Set(Set(f, field, v), field, w), Set(f, field, w));
  }

  /** Every `required` input holds something. */
  predicate Filled(f: Form)
  {
    forall g :: Get(f, g) != ""
  }

  /** The component's state, plus the timers it has started: `sending` while
      the 1500 ms wait is running, and the number of 2000 ms reset timers
      not yet fired. `focused` is the field that last got focus and has not
      lost it. */
  datatype Contact = Contact(
    form: Form,
    isSubmitting: bool,
    isSuccess: bool,
    focused: Option<Field>,
    sending: bool,
    pendingResets: nat)

  const Initial: Contact := Contact(EmptyForm, false, false, None, false, 0)

  /** `disabled={isSubmitting}`. */
  predicate ButtonDisabled(c: Contact)
  {
    c.isSubmitting
  }

  /** The wait is running exactly while the form is submitting, and a success
      overlay is always followed by a pending reset. */
  predicate Valid(c: Contact)
  {
    && (c.sending <==> c.isSubmitting)
    && (c.isSuccess ==> c.pendingResets > 0)
  }

  datatype Event =
    | Change(field: Field, value: string)
    | Focus(field: Field)
    | Blur
    /** The user submits; `emailAccepted` is the browser's verdict on the
        syntax of the `type="email"` input. */
    | Submit(emailAccepted: bool)
    | SendDone
    | ResetFired

  /** The browser runs the submit handler only for an enabled button and a
      form whose constraints hold. */
  predicate SubmitAccepted(c: Contact, emailAccepted: bool)
  {
    !ButtonDisabled(c) && Filled(c.form) && emailAccepted
  }

  function Step(c: Contact, e: Event): (r: Contact)
    ensures Valid(c) ==> Valid(r)
    ensures e.Change? ==> r == c.(form := Set(c.form, e.field, e.value))
    ensures e.Focus? ==> r == c.(focused := Some(e.field))
    ensures e.Blur? ==> r == c.(focused := None)
    ensures e.Submit? ==>
      r == (if SubmitAccepted(c, e.emailAccepted) then c.(isSubmitting := true, sending := true) else c)
    ensures e.SendDone? && c.sending ==>
      r.isSuccess && !r.isSubmitting && r.pendingResets == c.pendingResets + 1 && r.form == c.form
    ensures e.ResetFired? && c.pendingResets > 0 ==>
      r.form == EmptyForm && !r.isSuccess && r.pendingResets == c.pendingResets - 1
      && r.isSubmitting == c.isSubmitting
    ensures (e.SendDone? && !c.sending) || (e.ResetFired? && c.pendingResets == 0) ==> r == c
  {
    match e
    case Change(field, value) => c.(form := Set(c.form, field, value))
    case Focus(field) => c.(focused := Some(field))
    case Blur => c.(focused := None)
    case Submit(emailAccepted) =>
      if SubmitAccepted(c, emailAccepted) then c.(isSubmitting := true, sending := true) else c
    case SendDone =>
      if !c.sending then c
      else c.(isSuccess := true, isSubmitting := false, sending := false, pendingResets := c.pendingResets + 1)
    case ResetFired =>
      if c.pendingResets == 0 then c
      else c.(form := EmptyForm, isSuccess := false, pendingResets := c.pendingResets - 1)
  }

  function Run(c: Contact, events: seq<Event>): Contact
    decreases |events|
  {
    if |events| == 0 then c else Run(Step(c, events[0]), events[1..])
  }

  // ---------------------------------------------------------------------------
  // Properties

  /** The form starts empty, idle and with the button enabled. */
  lemma InitialIsIdle()
    ensures Valid(Initial)
    ensures forall g :: Get(Initial.form, g) == ""
    ensures !ButtonDisabled(Initial) && !Initial.isSuccess
  {
  }

  lemma {:induction false} RunKeepsValid(c: Contact, events: seq<Event>)
    requires Valid(c)
    ensures Valid(Run(c, events))
    decreases |events|
  {
    if |events| > 0 {
      RunKeepsValid(Step(c, events[0]), events[1..]);
    }
  }

  /** A submitted, filled-in form goes through submitting, then success, then
      back to an empty form with the overlay hidden. */
  lemma {:induction false} SubmitLifecycle(f: Form)
    requires Filled(f)
    ensures var c0 := Initial.(form := f);
      var c1 := Step(c0, Submit(true));
      var c2 := Step(c1, SendDone);
      var c3 := Step(c2, ResetFired);
      && c1.isSubmitting && ButtonDisabled(c1) && !c1.isSuccess && c1.form == f
      && !c2.isSubmitting && c2.isSuccess && c2.form == f
      && c3 == Initial
  {
  }

  /** While the button is disabled a submit changes nothing, so a second send
      cannot start during the first. */
  lemma {:induction false} NoDoubleSubmit(c: Contact, emailAccepted: bool)
    requires ButtonDisabled(c)
    ensures Step(c, Submit(emailAccepted)) == c
  {
  }

  /** A form with an empty required field is never submitted. */
  lemma {:induction false} EmptyFieldBlocksSubmit(c: Contact, g: Field, emailAccepted: bool)
    requires Get(c.form, g) == ""
    ensures Step(c, Submit(emailAccepted)) == c
  {
  }

  /** Firing every pending reset timer hides the overlay and empties the form. */
  lemma {:induction false} ResetsClearSuccess(c: Contact, n: nat)
    requires Valid(c) && n == c.pendingResets && n > 0
    ensures var r := Run(c, seq(n, _ => ResetFired));
      !r.isSuccess && r.form == EmptyForm && r.pendingResets == 0
    decreases n
  {
    var events := seq(n, _ => ResetFired);
    var c1 := Step(c, ResetFired);
    assert events[1..] == seq(n - 1, _ => ResetFired);
    if n > 1 {
      ResetsClearSuccess(c1, n - 1);
    }
  }

  /** Text typed during the 2000 ms after a successful send is wiped by the
      reset. */
  lemma {:induction false} TypingDuringSuccessIsLost(c: Contact, g: Field, v: string)
    requires Valid(c) && c.isSuccess
    ensures Run(c, [Change(g, v), ResetFired]).form == EmptyForm
  {
    var events := [Change(g, v), ResetFired];
    assert events[1..] == [ResetFired];
    assert [ResetFired][1..] == [];
  }
}

=== FILE: frame_draw.dfy ===
/** Drawing the selected frame (the draw and resize effects in
    components/ImageSequenceCanvas.tsx). A frame is drawn only when its image
    exists, has finished loading and has a non-zero natural width; otherwise
    the canvas keeps whatever it showed. Drawing resets the canvas to the
    container's size (which clears it) and draws the image cover-fit: scaled
    uniformly so that it covers the canvas, the overflow cropped equally on
    both sides. A resize also resets the canvas size and clears it. */
module FrameDraw {
  import opened Common
  import FrameIndex

  /** The fields of an `HTMLImageElement` the component reads. */
  datatype Image = Image(complete: bool, naturalWidth: nat, naturalHeight: nat)

  /** The container's `offsetWidth` and `offsetHeight`. */
  datatype Size = Size(width: nat, height: nat)

  /** The destination rectangle of `drawImage`. */
  datatype Placement = Placement(x: real, y: real, width: real, height: real)

  datatype Shown = Shown(frame: int, at: Placement)

  /** The canvas backing store: its size and the frame drawn on it, if any. */
  datatype Canvas = Canvas(width: nat, height: nat, content: Option<Shown>)

  /** The guard in front of every draw. */
  predicate Drawable(images: seq<Option<Image>>, frame: int)
  {
    && 0 <= frame < |images|
    && images[frame].Some?
    && images[frame].value.complete
    && images[frame].value.naturalWidth != 0
  }

  /** The guard and the scroll handler together: once every image of the
      sequence has finished loading with a positive width, the frame the
      scroll position selects is always drawable; a sequence with no frames
      selects frame -1, which never is. */
  lemma {:induction false} SelectedFrameDrawable(images: seq<Option<Image>>, y: real, start: real, end: real)
    requires start < end
    requires forall i :: 0 <= i < |images| ==>
      images[i].Some? && images[i].value.complete && images[i].value.naturalWidth > 0
    ensures |images| >= 1 ==> Drawable(images, FrameIndex.FrameAt(y, start, end, |images|))
    ensures |images| == 0 ==> !Drawable(images, FrameIndex.FrameAt(y, start, end, 0))
  {
    var f := FrameIndex.FrameAt(y, start, end, |images|);
    if |images| >= 1 {
      assert 0 <= f < |images|;
    } else {
      assert f == -1;
    }
  }

  /** `canvasRatio > imgRatio` with both ratios cross-multiplied. For an image
      of positive size this agrees with the floating-point comparison also
      when the canvas height is 0 (ratio +Infinity, or NaN when the width is 0
      too). */
  predicate CanvasWider(cw: nat, ch: nat, iw: nat, ih: nat)
  {
    cw * ih > iw * ch
  }

  predicate Covers(p: Placement, cw: nat, ch: nat)
  {
    && p.x <= 0.0 && p.y <= 0.0
    && p.x + p.width >= cw as real && p.y + p.height >= ch as real
  }

  /** The cover-fit rectangle: it keeps the image's aspect ratio, is at least
      as large as the canvas in both directions and exactly as large in one,
      and is centred on both axes (the offset is 0 on the fitted axis). */
  function CoverFit(cw: nat, ch: nat, iw: nat, ih: nat): (p: Placement)
    requires iw > 0 && ih > 0
    ensures p.width * ih as real == p.height * iw as real
    ensures p.width >= cw as real && p.height >= ch as real
    ensures p.width == cw as real || p.height == ch as real
    ensures p.x == (cw as real - p.width) / 2.0 && p.y == (ch as real - p.height) / 2.0
    ensures p.x == 0.0 || p.y == 0.0
    ensures Covers(p, cw, ch)
  {
    var imgRatio := iw as real / ih as real;
    if CanvasWider(cw, ch, iw, ih) then
      var drawHeight := cw as real / imgRatio;
      WiderFit(cw, ch, iw, ih);
      Placement(0.0, (ch as real - drawHeight) / 2.0, cw as real, drawHeight)
    else
      var drawWidth := ch as real * imgRatio;
      TallerFit(cw, ch, iw, ih);
      Placement((cw as real - drawWidth) / 2.0, 0.0, drawWidth, ch as real)
  }

  /** A wider canvas: the image is scaled to the canvas width, and its height
      then reaches at least the canvas height. */
  lemma {:induction false} WiderFit(cw: nat, ch: nat, iw: nat, ih: nat)
    requires iw > 0 && ih > 0 && CanvasWider(cw, ch, iw, ih)
    ensures var h := cw as real / (iw as real / ih as real);
      h * iw as real == cw as real * ih as real && h >= ch as real
  {
    var h := cw as real / (iw as real / ih as real);
    assert h == cw as real * ih as real / iw as real;
    assert h * iw as real == cw as real * ih as real;
    assert (cw * ih) as real == cw as real * ih as real;
    assert (iw * ch) as real == iw as real * ch as real;
    HeightCovers(h, cw as real * ih as real, iw as real, ch as real);
  }

  /** A canvas no wider than the image: the image is scaled to the canvas
      height, and its width then reaches at least the canvas width. */
  lemma {:induction false} TallerFit(cw: nat, ch: nat, iw: nat, ih: nat)
    requires iw > 0 && ih > 0 && !CanvasWider(cw, ch, iw, ih)
    ensures var w := ch as real * (iw as real / ih as real);
      w * ih as real == ch as real * iw as real && w >= cw as real
  {
    var w := ch as real * (iw as real / ih as real);
    assert w * ih as real == ch as real * iw as real;
    assert (cw * ih) as real == cw as real * ih as real;
    assert (iw * ch) as real == iw as real * ch as real;
    HeightCovers(w, ch as real * iw as real, ih as real, cw as real);
  }

  /** From `d * k == a` and `a >= k * c` with `k > 0`, `d >= c`. */
  lemma HeightCovers(d: real, a: real, k: real, c: real)
    requires k > 0.0 && d * k == a && a >= k * c
    ensures d >= c
  {
  }

  /** The draw effect for `frame`, run with the image array and the container
      as they are when the animation frame fires. */
  function Draw(canvas: Canvas, images: seq<Option<Image>>, frame: int, container: Option<Size>): (c: Canvas)
    ensures !Drawable(images, frame) || container.None? ==> c == canvas
    ensures Drawable(images, frame) && container.Some? ==>
      c.width == container.value.width && c.height == container.value.height
    ensures Drawable(images, frame) && container.Some? && images[frame].value.naturalHeight > 0 ==>
      c.content.Some? && c.content.value.frame == frame
    ensures Drawable(images, frame) && container.Some? && images[frame].value.naturalHeight > 0 ==>
      c.content == Some(Shown(frame, CoverFit(container.value.width, container.value.height,
        images[frame].value.naturalWidth, images[frame].value.naturalHeight)))
    ensures c != canvas && c.content.Some? ==>
      c.content.value.frame == frame && Covers(c.content.value.at, c.width, c.height)
  {
    if !Drawable(images, frame) || container.None? then canvas
    else
      var img := images[frame].value;
      var size := container.value;
      if img.naturalHeight == 0 then
        // imgRatio is +Infinity, so drawImage receives a non-finite size and
        // draws nothing on the freshly cleared canvas.
        Canvas(size.width, size.height, None)
      else
        Canvas(size.width, size.height,
          Some(Shown(frame, CoverFit(size.width, size.height, img.naturalWidth, img.naturalHeight))))
  }

  /** The resize handler: the canvas takes the container's size, which clears it. */
  function Resize(canvas: Canvas, container: Option<Size>): (c: Canvas)
    ensures container.None? ==> c == canvas
    ensures container.Some? ==>
      c.width == container.value.width && c.height == container.value.height && c.content.None?
  {
    match container
    case None => canvas
    case Some(size) => Canvas(size.width, size.height, None)
  }

  /** Whatever the canvas shows covers it completely. */
  predicate CoverInvariant(c: Canvas)
  {
    c.content.Some? ==> Covers(c.content.value.at, c.width, c.height)
  }

  lemma {:induction false} DrawKeepsCover(canvas: Canvas, images: seq<Option<Image>>, frame: int, container: Option<Size>)
    requires CoverInvariant(canvas)
    ensures CoverInvariant(Draw(canvas, images, frame, container))
    ensures CoverInvariant(Resize(canvas, container))
  {
  }

  /** A frame whose image failed to decode leaves the previous picture in place. */
  lemma {:induction false} BrokenFrameKeepsPicture(canvas: Canvas, images: seq<Option<Image>>, frame: int, container: Option<Size>)
    requires 0 <= frame < |images| && images[frame].Some? && images[frame].value.naturalWidth == 0
    ensures Draw(canvas, images, frame, container) == canvas
  {
  }

  /** A 16:9 image on a 1000 x 1000 canvas is drawn 1000 high and cropped on
      the sides. */
  lemma CoverFitExample()
    ensures CoverFit(1000, 1000, 1600, 900).height == 1000.0
    ensures CoverFit(1000, 1000, 1600, 900).x < 0.0
  {
  }
}

=== FILE: frame_index.dfy ===
/** Scroll position to frame index (`handleScroll` in
    components/ImageSequenceCanvas.tsx). The progress through the scroll range
    `[scrollStart, scrollEnd]` is clamped into `[0, 1]`, scaled to the last
    frame index and floored; a final `min` with the last index is kept as
    written. Numbers are real; the zero-width range, which the component
    divides by without a guard, is excluded by the precondition. */
module FrameIndex {
  import opened Common

  /** `Math.max(0, Math.min(1, (scrollY - scrollStart) / scrollRange))`. */
  function ScrollProgress(y: real, start: real, end: real): (p: real)
    requires start < end
    ensures 0.0 <= p <= 1.0
    ensures y <= start ==> p == 0.0
    ensures y >= end ==> p == 1.0
    ensures start <= y <= end ==> p * (end - start) == y - start
  {
    var q := (y - start) / (end - start);
    DivFacts(y - start, end - start);
    ClampReal(0.0, 1.0, q)
  }

  lemma DivFacts(a: real, d: real)
    requires d > 0.0
    ensures (a / d) * d == a
    ensures a <= 0.0 ==> a / d <= 0.0
    ensures a >= d ==> a / d >= 1.0
    ensures 0.0 <= a <= d ==> 0.0 <= a / d <= 1.0
  {
    var q := a / d;
    assert q * d == a;
    if a <= 0.0 && q > 0.0 {
      MulStrict(0.0, q, d);
    }
    if a >= d && q < 1.0 {
      MulStrict(q, 1.0, d);
    }
  }

  lemma FloorMonotone(a: real, b: real)
    requires a <= b
    ensures a.Floor <= b.Floor
  {
    assert a.Floor as real <= a;
    assert b < b.Floor as real + 1.0;
  }

  /** The frame for a progress `p` through the range: `p` scaled to the last
      frame index, floored, and capped at the last index. */
  function FrameOfProgress(p: real, total: nat): (r: int)
    requires 0.0 <= p <= 1.0
    ensures total == 0 ==> r == -1
    ensures total >= 1 ==> 0 <= r < total
    ensures total >= 1 && p < 1.0 ==> r as real <= p * (total - 1) as real < r as real + 1.0
    ensures total >= 1 && p == 1.0 ==> r == total - 1
  {
    var scaled := p * (total - 1) as real;
    if total == 0 then
      assert -1.0 <= scaled <= 0.0;
      MinInt(scaled.Floor, -1)
    else
      MulMonotone(p, 1.0, (total - 1) as real);
      MulMonotone(0.0, p, (total - 1) as real);
      if p < 1.0 && total > 1 then
        MulStrict(p, 1.0, (total - 1) as real);
        FloorMonotone(0.0, scaled);
        MinInt(scaled.Floor, total - 1)
      else
        FloorMonotone(0.0, scaled);
        MinInt(scaled.Floor, total - 1)
  }

  /** The frame shown at scroll position `y` for a sequence of `total` frames.
      Inside the range, frame `r` is shown exactly on the `r`-th of `total - 1`
      equal slices of the range; with no frames at all the index is -1, which
      selects no image. */
  function FrameAt(y: real, start: real, end: real, total: nat): (r: int)
    requires start < end
    ensures total == 0 ==> r == -1
    ensures total >= 1 ==> 0 <= r < total
    ensures total >= 1 && y <= start ==> r == 0
    ensures total >= 1 && y >= end ==> r == total - 1
    ensures total >= 1 && start <= y < end ==>
      && r as real * (end - start) <= (y - start) * (total - 1) as real
      && (y - start) * (total - 1) as real < (r + 1) as real * (end - start)
  {
    var p := ScrollProgress(y, start, end);
    var r := FrameOfProgress(p, total);
    if total >= 1 && start <= y < end then
      SliceOfRange(p, end - start, y - start, (total - 1) as real, r);
      r
    else
      r
  }

  /** Multiplying the floor bounds `r <= p*n < r+1` through by the range width. */
  lemma {:induction false} SliceOfRange(p: real, d: real, a: real, n: real, r: int)
    requires d > 0.0 && 0.0 <= a < d && p * d == a && n >= 0.0
    requires r as real <= p * n < r as real + 1.0
    ensures r as real * d <= a * n < (r + 1) as real * d
  {
    assert a * n == (p * n) * d;
    MulMonotone(r as real, p * n, d);
    MulStrict(p * n, r as real + 1.0, d);
  }

  lemma ProgressMonotone(y1: real, y2: real, start: real, end: real)
    requires start < end && y1 <= y2
    ensures ScrollProgress(y1, start, end) <= ScrollProgress(y2, start, end)
  {
    DivMonotone(y1 - start, y2 - start, end - start);
  }

  /** A larger progress never selects an earlier frame. */
  lemma {:induction false} FrameOfProgressMonotone(p1: real, p2: real, total: nat)
    requires 0.0 <= p1 <= p2 <= 1.0
    ensures FrameOfProgress(p1, total) <= FrameOfProgress(p2, total)
  {
    var n := (total - 1) as real;
    if total >= 1 {
      MulMonotone(p1, p2, n);
      FloorMonotone(p1 * n, p2 * n);
    }
  }

  /** Scrolling further down never shows an earlier frame. */
  lemma {:induction false} FrameAtMonotone(y1: real, y2: real, start: real, end: real, total: nat)
    requires start < end && y1 <= y2
    ensures FrameAt(y1, start, end, total) <= FrameAt(y2, start, end, total)
  {
    ProgressMonotone(y1, y2, start, end);
    var p1 := ScrollProgress(y1, start, end);
    var p2 := ScrollProgress(y2, start, end);
    FrameOfProgressMonotone(p1, p2, total);
    assert FrameAt(y1, start, end, total) == FrameOfProgress(p1, total);
    assert FrameAt(y2, start, end, total) == FrameOfProgress(p2, total);
  }

  /** The hero sequence: 191 frames over a 1000-pixel range; half-way down
      shows frame 95, and scrolling past the end stays on the last frame. */
  lemma HeroScrollExample()
    ensures FrameAt(500.0, 0.0, 1000.0, 191) == 95
    ensures FrameAt(1500.0, 0.0, 1000.0, 191) == 190
  {
    var p := ScrollProgress(500.0, 0.0, 1000.0);
    assert p * 1000.0 == 500.0;
    assert p == 0.5;
    assert p * 190.0 == 95.0;
  }
}

=== FILE: frame_preload.dfy ===
/** Frame preloading (the preload effect in components/ImageSequenceCanvas.tsx).
    On mount the first `min(10, N)` frames are requested at once and a 500 ms
    timer is armed that requests frames `10 .. N-1`; the effect's cleanup
    clears that timer. Every image reports exactly once, `onload` or
    `onerror`; both add one to a settled counter, but only `onload` compares
    the counter with `min(10, N)` and clears the loading flag. Nothing sets
    the flag back. Browser callbacks are the events of `Step`. */
module FramePreload {
  import opened Common

  /** Size of the batch requested immediately. */
  const EagerLimit: nat := 10
  /** Delay before the rest of the frames are requested. */
  const LazyDelayMs: nat := 500

  datatype Slot = Pending | Loaded | Failed

  datatype Event =
    | TimerFired            // the lazy-load timer runs `loadRemaining`
    | Teardown              // the effect's cleanup clears the timer
    | LoadOk(index: int)    // `img.onload` of one frame
    | LoadError(index: int) // `img.onerror` of one frame

  /** `requested` lists the frames whose image was created, in order; `slots`
      is the image array with each image's outcome; `settled` is
      `loadedCount`. */
  datatype Preloader = Preloader(
    total: nat,
    requested: seq<int>,
    slots: map<int, Slot>,
    settled: nat,
    isLoading: bool,
    timerArmed: bool)

  function EagerCount(total: nat): (n: nat)
    ensures n <= EagerLimit && n <= total
    ensures n == EagerLimit || n == total
  {
    MinInt(EagerLimit, total)
  }

  function SettledSet(slots: map<int, Slot>): set<int>
  {
    set i | i in slots && slots[i] != Pending
  }

  function LoadedSet(slots: map<int, Slot>): set<int>
  {
    set i | i in slots && slots[i] == Loaded
  }

  /** The well-formed states: the frames requested so far are either the
      eager batch (timer armed or cancelled) or all frames; each requested
      frame has exactly one slot; the counter counts the slots that have
      reported; and a cleared flag is backed by enough reports, at least one
      of them a successful load. */
  ghost predicate Valid(s: Preloader)
  {
    && (s.requested == Range(0, EagerCount(s.total)) || s.requested == Range(0, s.total))
    && (s.timerArmed ==> s.requested == Range(0, EagerCount(s.total)))
    && s.slots.Keys == Members(s.requested)
    && s.settled == |SettledSet(s.slots)|
    && (!s.isLoading ==> s.settled >= EagerCount(s.total) && LoadedSet(s.slots) != {})
  }

  function Members(xs: seq<int>): set<int>
  {
    set x | x in xs
  }

  /** Creates a pending image for each of `indices`. */
  function Request(slots: map<int, Slot>, indices: seq<int>): (r: map<int, Slot>)
    ensures forall i :: i in r <==> i in slots || i in indices
    ensures forall i :: i in r && i !in indices ==> r[i] == slots[i]
    ensures forall i :: i in indices ==> r[i] == Pending
    decreases |indices|
  {
    if |indices| == 0 then slots
    else Request(slots[indices[0] := Pending], indices[1..])
  }

  /** The state right after the effect runs: the eager batch is requested, the
      timer is armed, nothing has reported yet and the flag is up. */
  function Mount(total: nat): (s: Preloader)
    ensures Valid(s)
    ensures s.isLoading && s.timerArmed && s.settled == 0
    ensures forall i :: i in s.requested <==> 0 <= i < EagerCount(total)
  {
    var eager := Range(0, EagerCount(total));
    var slots := Request(map[], eager);
    assert SettledSet(slots) == {};
    Preloader(total, eager, slots, 0, true, true)
  }

  /** One image reports: its slot leaves `Pending` and the counter grows. A
      report for a frame that is not pending is not something the browser
      delivers; it leaves the state as it is. */
  function Settle(s: Preloader, i: int, ok: bool): (r: Preloader)
    requires Valid(s)
    ensures Valid(r)
    ensures r.total == s.total && r.requested == s.requested && r.timerArmed == s.timerArmed
    ensures !s.isLoading ==> !r.isLoading
    ensures s.isLoading && !r.isLoading ==>
      ok && i in s.slots && s.slots[i] == Pending && r.settled >= EagerCount(s.total)
    ensures ok && i in s.slots && s.slots[i] == Pending && s.settled + 1 >= EagerCount(s.total) ==>
      !r.isLoading
    ensures i in s.slots && s.slots[i] == Pending ==>
      r.slots == s.slots[i := if ok then Loaded else Failed] && r.settled == s.settled + 1
    ensures !(i in s.slots && s.slots[i] == Pending) ==> r == s
  {
    if i in s.slots && s.slots[i] == Pending then
      var slots := s.slots[i := if ok then Loaded else Failed];
      ReportOne(s.slots, i, if ok then Loaded else Failed);
      var settled := s.settled + 1;
      var isLoading := if ok && settled >= EagerCount(s.total) then false else s.isLoading;
      s.(slots := slots, settled := settled, isLoading := isLoading)
    else
      s
  }

  lemma {:induction false} ReportOne(slots: map<int, Slot>, i: int, v: Slot)
    requires i in slots && slots[i] == Pending && v != Pending
    ensures slots[i := v].Keys == slots.Keys
    ensures |SettledSet(slots[i := v])| == |SettledSet(slots)| + 1
    ensures LoadedSet(slots) <= LoadedSet(slots[i := v])
    ensures v == Loaded ==> i in LoadedSet(slots[i := v])
  {
    var after := slots[i := v];
    assert SettledSet(after) == SettledSet(slots) + {i};
    assert i !in SettledSet(slots);
  }

  lemma {:induction false} EagerThenLazy(total: nat)
    ensures Range(0, EagerCount(total)) + Range(EagerLimit, total) == Range(0, total)
  {
    var a := Range(0, EagerCount(total));
    var b := Range(EagerLimit, total);
    var c := Range(0, total);
    if total <= EagerLimit {
      assert |b| == 0 && a == c;
      assert a + b == a;
    } else {
      assert |a| == EagerLimit && |a + b| == |c|;
      forall k | 0 <= k < |c|
        ensures (a + b)[k] == c[k]
      {
        if k < EagerLimit {
          assert (a + b)[k] == a[k];
        } else {
          assert (a + b)[k] == b[k - EagerLimit];
        }
      }
    }
  }

  /** `loadRemaining`: the timer requests frames `10 .. N-1` (none when
      `N <= 10`) and is spent. */
  function LoadRemaining(s: Preloader): (r: Preloader)
    requires Valid(s) && s.timerArmed
    ensures Valid(r)
    ensures r.requested == Range(0, s.total) && !r.timerArmed
    ensures r.total == s.total && r.settled == s.settled && r.isLoading == s.isLoading
    ensures forall i :: i in s.slots ==> i in r.slots && r.slots[i] == s.slots[i]
    ensures forall i :: i in r.slots && i !in s.slots ==> r.slots[i] == Pending
  {
    var lazy := Range(EagerLimit, s.total);
    EagerThenLazy(s.total);
    assert forall i :: i in s.slots ==> i < EagerLimit;
    var slots := Request(s.slots, lazy);
    RequestFresh(s.slots, lazy);
    assert slots.Keys == Members(s.requested + lazy);
    s.(requested := s.requested + lazy, slots := slots, timerArmed := false)
  }

  /** Requesting frames that have no image yet adds pending slots only: the
      outcomes already reported stay as they are. */
  lemma {:induction false} RequestFresh(slots: map<int, Slot>, indices: seq<int>)
    requires forall i :: i in slots ==> i !in indices
    ensures var r := Request(slots, indices);
      && (forall i :: i in slots ==> i in r && r[i] == slots[i])
      && (forall i :: i in r && i !in slots ==> r[i] == Pending)
      && SettledSet(r) == SettledSet(slots)
      && LoadedSet(r) == LoadedSet(slots)
  {
    var r := Request(slots, indices);
    assert forall i :: i in slots ==> r[i] == slots[i];
    assert SettledSet(r) == SettledSet(slots);
    assert LoadedSet(r) == LoadedSet(slots);
  }

  function Step(s: Preloader, e: Event): (r: Preloader)
    requires Valid(s)
    ensures Valid(r)
    ensures r.total == s.total
    ensures !s.isLoading ==> !r.isLoading
    ensures s.isLoading && !r.isLoading ==>
      e.LoadOk? && e.index in s.slots && s.slots[e.index] == Pending && r.settled >= EagerCount(s.total)
    ensures e.LoadOk? && e.index in s.slots && s.slots[e.index] == Pending && s.settled + 1 >= EagerCount(s.total) ==>
      !r.isLoading
    ensures |r.requested| >= |s.requested| && r.requested[..|s.requested|] == s.requested
    ensures !e.TimerFired? || !s.timerArmed ==> r.requested == s.requested
    ensures e.TimerFired? && s.timerArmed ==> r.requested == Range(0, s.total) && !r.timerArmed
    ensures !s.timerArmed ==> !r.timerArmed
    ensures e.Teardown? ==> !r.timerArmed
    ensures (e.LoadOk? || e.LoadError?) && e.index in s.slots && s.slots[e.index] == Pending ==>
      && r.slots == s.slots[e.index := if e.LoadOk? then Loaded else Failed]
      && r.settled == s.settled + 1
      && r.timerArmed == s.timerArmed
    ensures (e.LoadOk? || e.LoadError?) && !(e.index in s.slots && s.slots[e.index] == Pending) ==> r == s
    ensures e.Teardown? ==> r == s.(timerArmed := false)
    ensures e.TimerFired? ==>
      && r.settled == s.settled && r.isLoading == s.isLoading
      && (forall i :: i in s.slots ==> i in r.slots && r.slots[i] == s.slots[i])
      && (forall i :: i in r.slots && i !in s.slots ==> r.slots[i] == Pending)
  {
    match e
    case TimerFired => if s.timerArmed then LoadRemaining(s) else s
    case Teardown => s.(timerArmed := false)
    case LoadOk(i) => Settle(s, i, true)
    case LoadError(i) => Settle(s, i, false)
  }

  function Run(s: Preloader, events: seq<Event>): (r: Preloader)
    requires Valid(s)
    ensures Valid(r)
    decreases |events|
  {
    if |events| == 0 then s else Run(Step(s, events[0]), events[1..])
  }

  // ---------------------------------------------------------------------------
  // Properties of whole runs

  /** Once the timer has fired, every frame `0 .. N-1` has been requested, each
      exactly once. */
  lemma {:induction false} AllFramesRequestedOnce(s: Preloader)
    requires Valid(s) && s.timerArmed
    ensures var r := Step(s, TimerFired);
      && (forall i :: i in r.requested <==> 0 <= i < s.total)
      && (forall a, b :: 0 <= a < b < |r.requested| ==> r.requested[a] != r.requested[b])
  {
  }

  /** After teardown the timer can no longer fire: whatever the browser
      reports later, no frame outside the eager batch is ever requested. */
  lemma {:induction false} NoLazyAfterTeardown(s: Preloader, events: seq<Event>)
    requires Valid(s) && !s.timerArmed
    ensures Run(s, events).requested == s.requested
    decreases |events|
  {
    if |events| > 0 {
      NoLazyAfterTeardown(Step(s, events[0]), events[1..]);
    }
  }

  lemma {:induction false} TeardownBeforeTimer(total: nat, events: seq<Event>)
    ensures forall i :: i in Run(Step(Mount(total), Teardown), events).requested ==> 0 <= i < EagerCount(total)
  {
    NoLazyAfterTeardown(Step(Mount(total), Teardown), events);
  }

  /** The flag only ever goes down, never back up. */
  lemma {:induction false} LoadingNeverReturns(s: Preloader, events: seq<Event>)
    requires Valid(s) && !s.isLoading
    ensures !Run(s, events).isLoading
    decreases |events|
  {
    if |events| > 0 {
      LoadingNeverReturns(Step(s, events[0]), events[1..]);
    }
  }

  /** Errors alone never clear the flag: without a successful load the
      spinner stays, however many frames have reported. */
  lemma {:induction false} NoLoadKeepsLoading(s: Preloader, events: seq<Event>)
    requires Valid(s) && s.isLoading
    requires forall k :: 0 <= k < |events| ==> !events[k].LoadOk?
    ensures Run(s, events).isLoading
    decreases |events|
  {
    if |events| > 0 {
      NoLoadKeepsLoading(Step(s, events[0]), events[1..]);
    }
  }

  /** A state where every requested frame failed is still loading; with at
      most ten frames nothing more is ever requested, so this is final. */
  lemma {:induction false} AllFailedStillLoading(s: Preloader)
    requires Valid(s)
    requires forall i :: i in s.slots ==> s.slots[i] == Failed
    ensures s.isLoading
  {
    assert LoadedSet(s.slots) == {};
  }

  /** A single frame that fails: it has reported, the counter has reached
      `min(10, 1)`, and yet the spinner stays. */
  lemma SingleFailedFrameExample()
    ensures var r := Run(Mount(1), [TimerFired, LoadError(0)]);
      r.settled == EagerCount(1) && r.isLoading
  {
    var m := Mount(1);
    assert m.requested == [0];
    var t := Step(m, TimerFired);
    assert Range(EagerLimit, 1) == [];
    assert t.slots == m.slots;
    var r := Step(t, LoadError(0));
    assert Run(r, []) == r;
    assert Run(t, [LoadError(0)]) == r;
  }
}

=== FILE: frame_url.dfy ===
/** Frame URLs of a scroll-driven image sequence (`getFrameUrl` in
    components/ImageSequenceCanvas.tsx): the frame index is written in decimal,
    left-padded with '0' to three characters, and substituted for the FIRST
    occurrence of the placeholder `frame_000` in the base URL. */
module FrameUrl {
  import opened Common

  const Placeholder: string := "frame_000"
  const Prefix: string := "frame_"
  const PadWidth: nat := 3

  predicate IsDigit(c: char) { '0' <= c <= '9' }

  predicate AllDigits(s: string) { forall i :: 0 <= i < |s| ==> IsDigit(s[i]) }

  function DigitChar(d: nat): (c: char)
    requires d < 10
    ensures IsDigit(c)
  {
    ('0' as int + d) as char
  }

  function DigitValue(c: char): (d: nat)
    requires IsDigit(c)
    ensures d < 10
  {
    c as int - '0' as int
  }

  /** `String(n)` for a non-negative integer: its decimal digits, most
      significant first, without leading zeros. */
  function Digits(n: nat): (s: string)
    ensures 1 <= |s|
    ensures AllDigits(s)
    ensures |s| > 1 ==> s[0] != '0'
    decreases n
  {
    if n < 10 then [DigitChar(n)] else Digits(n / 10) + [DigitChar(n % 10)]
  }

  /** Reads a string of decimal digits back as a number (leading zeros allowed). */
  function ParseDigits(s: string): nat
    requires AllDigits(s)
    decreases |s|
  {
    if |s| == 0 then 0 else ParseDigits(s[..|s| - 1]) * 10 + DigitValue(s[|s| - 1])
  }

  function Repeat(c: char, n: nat): (r: string)
    ensures |r| == n
    ensures forall i :: 0 <= i < n ==> r[i] == c
  {
    if n == 0 then [] else [c] + Repeat(c, n - 1)
  }

  /** `s.padStart(width, fill)` for a one-character fill: `s` itself when it
      is already at least `width` long, otherwise `s` preceded by enough fill
      characters to reach `width`. */
  function PadStart(s: string, width: nat, fill: char): (r: string)
    ensures |r| == if |s| >= width then |s| else width
    ensures r[|r| - |s|..] == s
    ensures forall i :: 0 <= i < |r| - |s| ==> r[i] == fill
  {
    if |s| >= width then s else Repeat(fill, width - |s|) + s
  }

  /** `String(index).padStart(3, '0')`. */
  function PaddedIndex(index: nat): string
  {
    PadStart(Digits(index), PadWidth, '0')
  }

  predicate OccursAt(s: string, pat: string, i: nat)
  {
    i + |pat| <= |s| && s[i..i + |pat|] == pat
  }

  /** `s.indexOf(pat, from)`: the first position at or after `from` where
      `pat` occurs, or None. */
  function IndexFrom(s: string, pat: string, from: nat): (r: Option<nat>)
    ensures r.Some? ==> from <= r.value && OccursAt(s, pat, r.value)
    ensures r.Some? ==> forall j :: from <= j < r.value ==> !OccursAt(s, pat, j)
    ensures r.None? ==> forall j :: from <= j ==> !OccursAt(s, pat, j)
    decreases |s| - from
  {
    if from + |pat| > |s| then None
    else if s[from..from + |pat|] == pat then Some(from)
    else IndexFrom(s, pat, from + 1)
  }

  function IndexOf(s: string, pat: string): Option<nat>
  {
    IndexFrom(s, pat, 0)
  }

  /** `s.replace(pat, rep)` with a string pattern: only the first occurrence
      is replaced, and a string without `pat` comes back unchanged. (The
      replacements used here contain no `$`, so JavaScript's replacement
      patterns play no part.) */
  function ReplaceFirst(s: string, pat: string, rep: string): (r: string)
    ensures IndexOf(s, pat).None? ==> r == s
    ensures IndexOf(s, pat).Some? ==>
      var i := IndexOf(s, pat).value;
      r == s[..i] + rep + s[i + |pat|..]
  {
    match IndexOf(s, pat)
    case None => s
    case Some(i) => s[..i] + rep + s[i + |pat|..]
  }

  /** `getFrameUrl(index)`. */
  function FrameUrl(baseUrl: string, index: nat): (r: string)
    ensures IndexOf(baseUrl, Placeholder).None? ==> r == baseUrl
  {
    ReplaceFirst(baseUrl, Placeholder, Prefix + PaddedIndex(index))
  }

  /** Reads the frame number back out of a URL built from `baseUrl`: the three
      characters after `frame_` at the placeholder's position. */
  function DecodeFrameIndex(baseUrl: string, url: string): Option<nat>
  {
    match IndexOf(baseUrl, Placeholder)
    case None => None
    case Some(i) =>
      if i + |Placeholder| <= |url| && AllDigits(url[i + |Prefix|..i + |Placeholder|])
      then Some(ParseDigits(url[i + |Prefix|..i + |Placeholder|]))
      else None
  }

  // ---------------------------------------------------------------------------
  // Digits and padding

  lemma {:induction false} ParseDigitsOfDigits(n: nat)
    ensures ParseDigits(Digits(n)) == n
    decreases n
  {
    if n >= 10 {
      var s := Digits(n / 10) + [DigitChar(n % 10)];
      assert s[..|s| - 1] == Digits(n / 10);
      ParseDigitsOfDigits(n / 10);
    }
  }

  lemma {:induction false} ParseDigitsOfZeros(k: nat)
    ensures AllDigits(Repeat('0', k))
    ensures ParseDigits(Repeat('0', k)) == 0
  {
    if k > 0 {
      var z := Repeat('0', k);
      assert z[..k - 1] == Repeat('0', k - 1);
      ParseDigitsOfZeros(k - 1);
    }
  }

  /** Leading zeros do not change the value of a digit string. */
  lemma {:induction false} ParseDigitsLeadingZeros(k: nat, s: string)
    requires AllDigits(s)
    ensures AllDigits(Repeat('0', k) + s)
    ensures ParseDigits(Repeat('0', k) + s) == ParseDigits(s)
    decreases |s|
  {
    ParseDigitsOfZeros(k);
    var z := Repeat('0', k);
    if |s| == 0 {
      assert z + s == z;
    } else {
      var t := z + s;
      assert t[..|t| - 1] == z + s[..|s| - 1];
      assert t[|t| - 1] == s[|s| - 1];
      ParseDigitsLeadingZeros(k, s[..|s| - 1]);
    }
  }

  lemma {:induction false} DigitsLength(n: nat)
    requires n <= 999
    ensures |Digits(n)| <= 3
  {
    if n >= 100 {
      assert Digits(n / 10) == Digits(n / 10 / 10) + [DigitChar(n / 10 % 10)];
      assert n / 10 / 10 < 10;
    }
  }

  /** For indices up to 999 the padded index is exactly three digits and reads
      back as the index: the padding loses nothing. */
  lemma {:induction false} PaddedIndexRoundTrip(index: nat)
    requires index <= 999
    ensures |PaddedIndex(index)| == PadWidth
    ensures AllDigits(PaddedIndex(index))
    ensures ParseDigits(PaddedIndex(index)) == index
  {
    DigitsLength(index);
    var d := Digits(index);
    assert PaddedIndex(index) == Repeat('0', PadWidth - |d|) + d;
    ParseDigitsLeadingZeros(PadWidth - |d|, d);
    ParseDigitsOfDigits(index);
  }

  // ---------------------------------------------------------------------------
  // Frame URLs

  /** Frame 0 is the base URL itself: the placeholder is replaced by itself. */
  lemma {:induction false} FrameUrlZero(baseUrl: string)
    ensures FrameUrl(baseUrl, 0) == baseUrl
  {
    assert Prefix + PaddedIndex(0) == Placeholder;
    match IndexOf(baseUrl, Placeholder)
    case None =>
    case Some(i) =>
      assert baseUrl[i..i + |Placeholder|] == Placeholder;
      assert baseUrl == baseUrl[..i] + baseUrl[i..i + |Placeholder|] + baseUrl[i + |Placeholder|..];
  }

  /** For `0 <= index <= 999` and a base URL holding `frame_000` first at
      position `i`, the URL keeps the base's length, everything outside the
      three digit positions `i+6 .. i+9`, and those positions read back as
      the index. */
  lemma {:induction false} FrameUrlShape(baseUrl: string, index: nat)
    requires index <= 999
    requires IndexOf(baseUrl, Placeholder).Some?
    ensures var i := IndexOf(baseUrl, Placeholder).value;
      var r := FrameUrl(baseUrl, index);
      && |r| == |baseUrl|
      && r[..i + |Prefix|] == baseUrl[..i + |Prefix|]
      && r[i + |Placeholder|..] == baseUrl[i + |Placeholder|..]
      && r[i + |Prefix|..i + |Placeholder|] == PaddedIndex(index)
  {
    PaddedIndexRoundTrip(index);
    var i := IndexOf(baseUrl, Placeholder).value;
    var mid := Prefix + PaddedIndex(index);
    assert mid[..|Prefix|] == Prefix;
    assert mid[|Prefix|..] == PaddedIndex(index);
    assert baseUrl[i..i + |Placeholder|] == Placeholder;
    SpliceKeeps(baseUrl, i, |Placeholder|, mid, |Prefix|);
    assert Placeholder[..|Prefix|] == Prefix;
  }

  /** Replacing the `n` characters at `i` by `mid` of the same length keeps
      the length and everything outside the window; the first `k` characters
      of the window become those of `mid`. */
  lemma {:induction false} SpliceKeeps(s: string, i: nat, n: nat, mid: string, k: nat)
    requires i + n <= |s| && |mid| == n && k <= n
    ensures var r := s[..i] + mid + s[i + n..];
      && |r| == |s|
      && r[i + n..] == s[i + n..]
      && r[..i + k] == s[..i] + mid[..k]
      && s[..i + k] == s[..i] + s[i..i + n][..k]
      && r[i + k..i + n] == mid[k..]
  {
    var r := s[..i] + mid + s[i + n..];
    assert r[..i + k] == s[..i] + mid[..k];
    assert s[..i + k] == s[..i] + s[i..i + n][..k];
  }

  /** Round trip: the frame number can be read back from its URL, so distinct
      indices up to 999 never share a URL. */
  lemma {:induction false} FrameUrlDecodes(baseUrl: string, index: nat)
    requires index <= 999
    requires IndexOf(baseUrl, Placeholder).Some?
    ensures DecodeFrameIndex(baseUrl, FrameUrl(baseUrl, index)) == Some(index)
  {
    FrameUrlShape(baseUrl, index);
    PaddedIndexRoundTrip(index);
  }

  lemma {:induction false} FrameUrlInjective(baseUrl: string, a: nat, b: nat)
    requires a <= 999 && b <= 999 && a != b
    requires IndexOf(baseUrl, Placeholder).Some?
    ensures FrameUrl(baseUrl, a) != FrameUrl(baseUrl, b)
  {
    FrameUrlDecodes(baseUrl, a);
    FrameUrlDecodes(baseUrl, b);
  }

  lemma FrameUrlExampleSeven()
    ensures FrameUrl("frame_000.webp", 7) == "frame_007.webp"
  {
    var u := "frame_000.webp";
    assert u[0..9] == Placeholder;
    assert IndexOf(u, Placeholder) == Some(0);
    assert Digits(7) == "7";
    assert Repeat('0', 2) == "00";
    assert PaddedIndex(7) == "007";
  }

  lemma FrameUrlExampleFirstOnly()
    ensures FrameUrl("/frame_000/frame_000", 42) == "/frame_042/frame_000"
  {
    var w := "/frame_000/frame_000";
    assert w[0..9][0] != Placeholder[0];
    assert w[1..10] == Placeholder;
    assert IndexFrom(w, Placeholder, 1) == Some(1);
    assert IndexOf(w, Placeholder) == Some(1);
    assert Digits(42) == Digits(4) + [DigitChar(2)];
    assert Digits(42) == "42";
    assert PaddedIndex(42) == "042";
    assert w[..1] == "/";
    assert w[10..] == "/frame_000";
    assert FrameUrl(w, 42) == w[..1] + (Prefix + "042") + w[10..];
  }
}

=== FILE: hero.dfy ===
/** The hero section's own logic (components/HeroSection.tsx): where each
    floating particle starts, the typing effect that reveals the subtitle one
    character per 80 ms tick, and the clamp applied to the background opacity
    before it is stored. */
module Hero {
  import opened Common

  // ---------------------------------------------------------------------------
  // Particles

  const ParticleCount: nat := 20
  const XMultiplier: nat := 1234567
  const YMultiplier: nat := 7654321

  /** `((index * k) % 100) / 100`: a pseudo-random fraction fixed by the index. */
  function Seed(index: nat, k: nat): (s: real)
    ensures 0.0 <= s <= 0.99
    ensures s * 100.0 == ((index * k) % 100) as real
    ensures index == 0 ==> s == 0.0
  {
    ((index * k) % 100) as real / 100.0
  }

  datatype Point = Point(x: real, y: real)

  /** `getParticlePosition(index, width, height)`: the seeds scaled to the
      window. */
  function ParticlePosition(index: nat, width: real, height: real): (p: Point)
    ensures index == 0 ==> p == Point(0.0, 0.0)
  {
    var xs := Seed(index, XMultiplier);
    var ys := Seed(index, YMultiplier);
    Point(xs * width, ys * height)
  }

  /** Every particle starts inside the window: at most 99 % of the way
      across and down. */
  lemma {:induction false} ParticleInWindow(index: nat, width: real, height: real)
    requires width >= 0.0 && height >= 0.0
    ensures var p := ParticlePosition(index, width, height);
      0.0 <= p.x <= 0.99 * width && 0.0 <= p.y <= 0.99 * height
  {
    var xs := Seed(index, XMultiplier);
    var ys := Seed(index, YMultiplier);
    ScaleBounds(xs, width);
    ScaleBounds(ys, height);
    assert ParticlePosition(index, width, height) == Point(xs * width, ys * height);
  }

  lemma ScaleBounds(s: real, w: real)
    requires 0.0 <= s <= 0.99
    ensures w >= 0.0 ==> 0.0 <= s * w <= 0.99 * w
  {
    if w >= 0.0 {
      MulMonotone(s, 0.99, w);
      MulMonotone(0.0, s, w);
    }
  }

  /** `(a + 100 * m) % 100 == a % 100`. */
  lemma {:induction false} ModHundredShift(a: nat, m: nat)
    ensures (a + 100 * m) % 100 == a % 100
  {
    var q := a / 100;
    var r := a % 100;
    assert a + 100 * m == 100 * (q + m) + r;
  }

  /** The placement repeats every 100 indices. */
  lemma {:induction false} ParticlePeriodic(index: nat, width: real, height: real)
    ensures ParticlePosition(index + 100, width, height) == ParticlePosition(index, width, height)
  {
    assert (index + 100) * XMultiplier == index * XMultiplier + 100 * XMultiplier;
    assert (index + 100) * YMultiplier == index * YMultiplier + 100 * YMultiplier;
    ModHundredShift(index * XMultiplier, XMultiplier);
    ModHundredShift(index * YMultiplier, YMultiplier);
  }

  /** Only the last two digits of each factor matter: `(i * k) % 100` is
      `(i * (k % 100)) % 100`. */
  lemma {:induction false} ModHundredFactor(i: nat, k: nat)
    ensures (i * k) % 100 == (i * (k % 100)) % 100
  {
    assert i * k == i * (k % 100) + 100 * (i * (k / 100));
    ModHundredShift(i * (k % 100), i * (k / 100));
  }

  /** `(a * c) % 100` depends only on `a % 100`. */
  lemma {:induction false} ModHundredScale(a: nat, c: nat)
    ensures (a * c) % 100 == ((a % 100) * c) % 100
  {
    assert a * c == (a % 100) * c + 100 * ((a / 100) * c);
    ModHundredShift((a % 100) * c, (a / 100) * c);
  }

  /** The x seed determines the index up to a multiple of 100 (67 is
      invertible modulo 100, with inverse 3). */
  lemma {:induction false} XSeedRecoversIndex(i: nat)
    ensures (((i * XMultiplier) % 100) * 3) % 100 == i % 100
  {
    ModHundredFactor(i, XMultiplier);
    assert XMultiplier % 100 == 67;
    ModHundredScale(i * 67, 3);
    assert i * 67 * 3 == i + 100 * (2 * i);
    ModHundredShift(i, 2 * i);
  }

  /** Indices below 100 have different x seeds. */
  lemma {:induction false} XSeedInjective(i: nat, j: nat)
    requires i < 100 && j < 100 && i != j
    ensures Seed(i, XMultiplier) != Seed(j, XMultiplier)
  {
    XSeedRecoversIndex(i);
    XSeedRecoversIndex(j);
  }

  lemma ScaleInjective(a: real, b: real, w: real)
    requires a != b && w > 0.0
    ensures a * w != b * w
  {
    if a < b {
      MulStrict(a, b, w);
    } else {
      MulStrict(b, a, w);
    }
  }

  /** Particles with different x seeds start at different horizontal
      positions on a window of positive width. */
  lemma {:induction false} SeedsSeparate(i: nat, j: nat, width: real, height: real)
    requires Seed(i, XMultiplier) != Seed(j, XMultiplier) && width > 0.0
    ensures ParticlePosition(i, width, height).x != ParticlePosition(j, width, height).x
  {
    ScaleInjective(Seed(i, XMultiplier), Seed(j, XMultiplier), width);
  }

  /** The 20 particles of the hero start at 20 different horizontal positions
      on any window of positive width. */
  lemma {:induction false} ParticlesDistinct(i: nat, j: nat, width: real, height: real)
    requires i < ParticleCount && j < ParticleCount && i != j && width > 0.0
    ensures ParticlePosition(i, width, height).x != ParticlePosition(j, width, height).x
  {
    XSeedInjective(i, j);
    SeedsSeparate(i, j, width, height);
  }

  // ---------------------------------------------------------------------------
  // Typing effect

  const FullText: string := "Fullstack Developer"
  const TypingIntervalMs: nat := 80

  /** The interval's counter, the text on screen and whether the interval is
      still registered. */
  datatype Typing = Typing(index: nat, displayText: string, running: bool)

  /** State right after the effect runs: nothing shown, the interval set. */
  const TypingStart: Typing := Typing(0, "", true)

  /** `text.slice(0, n)` for `n >= 0`. */
  function Prefix(text: string, n: nat): (r: string)
    ensures |r| == MinInt(n, |text|)
    ensures r <= text
  {
    text[..MinInt(n, |text|)]
  }

  /** One interval tick: show the prefix of length `index`, advance the
      counter, and clear the interval once it passes the text's length. */
  function Tick(t: Typing): (r: Typing)
    ensures !t.running ==> r == t
    ensures t.running ==> r.index == t.index + 1 && r.displayText == Prefix(FullText, t.index)
    ensures t.running ==> (r.running <==> r.index <= |FullText|)
  {
    if !t.running then t
    else
      var index := t.index + 1;
      Typing(index, Prefix(FullText, t.index), index <= |FullText|)
  }

  /** The state after `n` ticks. */
  function Ticks(t: Typing, n: nat): Typing
  {
    if n == 0 then t else Tick(Ticks(t, n - 1))
  }

  /** After `n` ticks the screen shows the first `n - 1` characters and the
      interval is still set; after `|FullText| + 1` ticks the whole text is
      shown, the interval is cleared, and nothing changes any more. */
  lemma {:induction false} TypingAfter(n: nat)
    ensures n <= |FullText| ==>
      Ticks(TypingStart, n) == Typing(n, FullText[..MaxInt(n - 1, 0)], true)
    ensures n > |FullText| ==>
      Ticks(TypingStart, n) == Typing(|FullText| + 1, FullText, false)
  {
    if n > 0 {
      TypingAfter(n - 1);
      if n - 1 > |FullText| {
      } else {
        assert Prefix(FullText, n - 1) == FullText[..n - 1];
        if n - 1 == |FullText| {
          assert FullText[..n - 1] == FullText;
        }
      }
    }
  }

  /** The texts shown by successive ticks are the prefixes of lengths
      0, 1, ..., `|FullText|`, each one character longer than the last. */
  lemma {:induction false} TypingShowsPrefixes(k: nat)
    requires 1 <= k <= |FullText|
    ensures Ticks(TypingStart, k + 1).displayText
      == Ticks(TypingStart, k).displayText + [FullText[k - 1]]
  {
    TypingAfter(k);
    TypingAfter(k + 1);
    assert FullText[..k] == FullText[..k - 1] + [FullText[k - 1]];
  }

  // ---------------------------------------------------------------------------
  // Background opacity

  /** `Math.max(0, Math.min(1, latest))`: the stored opacity is a valid CSS
      opacity and equals the animated value whenever that already is one. */
  function BackgroundOpacity(latest: real): (r: real)
    ensures 0.0 <= r <= 1.0
    ensures 0.0 <= latest <= 1.0 ==> r == latest
    ensures latest < 0.0 ==> r == 0.0
    ensures latest > 1.0 ==> r == 1.0
  {
    ClampReal(0.0, 1.0, latest)
  }
}

=== FILE: navigation.dfy ===
/** The navigation bar (components/Navigation.tsx): which section is active
    for a given scroll position and section layout, whether the bar counts as
    scrolled, what a click does, and which buttons and dots are highlighted.
    The page layout enters as a map from element id to its bounding
    rectangle; an id missing from the map has no element. */
module Navigation {
  import opened Common

  /** The bar shows once the page is scrolled past this many pixels. */
  const ScrolledAbove: real := 50.0
  /** While the scroll offset is below this, the hero is active whatever the
      layout. */
  const HeroZone: real := 100.0
  /** A section is active when it straddles this viewport line. */
  const ProbeLine: real := 200.0

  const Hero: string := "hero"
  /** The sections probed, in order. */
  const Sections: seq<string> := ["about", "experience", "contact"]

  datatype Rect = Rect(top: real, bottom: real)

  datatype NavItem = NavItem(name: string, href: string)
  datatype SectionDot = SectionDot(id: string, title: string, href: string)

  const NavItems: seq<NavItem> := [
    NavItem("About", "#about"),
    NavItem("Experience", "#experience"),
    NavItem("Contact", "#contact")
  ]

  const SectionDots: seq<SectionDot> := [
    SectionDot("hero", "Home", "#"),
    SectionDot("about", "About", "#about"),
    SectionDot("experience", "Experience", "#experience"),
    SectionDot("contact", "Contact", "#contact")
  ]

  datatype NavState = NavState(isOpen: bool, isScrolled: bool, activeSection: string)

  /** Menu closed, bar hidden, no section active. */
  const Initial: NavState := NavState(false, false, "")

  /** Section `order[k]` has an element and it straddles the probe line. */
  predicate HitAt(order: seq<string>, layout: map<string, Rect>, k: int)
    requires 0 <= k < |order|
  {
    order[k] in layout && layout[order[k]].top <= ProbeLine && layout[order[k]].bottom >= ProbeLine
  }

  predicate NoHitBefore(order: seq<string>, layout: map<string, Rect>, k: int)
    requires 0 <= k <= |order|
  {
    forall j :: 0 <= j < k ==> !HitAt(order, layout, j)
  }

  /** The position of the first section in `order` that straddles the probe
      line, skipping sections without an element; None when there is none. */
  function FirstHit(order: seq<string>, layout: map<string, Rect>): (r: Option<nat>)
    ensures r.Some? ==> r.value < |order| && HitAt(order, layout, r.value)
    ensures r.Some? ==> forall j :: 0 <= j < r.value ==> !HitAt(order, layout, j)
    ensures r.None? ==> forall j :: 0 <= j < |order| ==> !HitAt(order, layout, j)
    decreases |order|
  {
    if |order| == 0 then None
    else if HitAt(order, layout, 0) then Some(0)
    else
      match FirstHit(order[1..], layout)
      case None =>
        assert forall j :: 1 <= j < |order| ==> HitAt(order, layout, j) == HitAt(order[1..], layout, j - 1);
        None
      case Some(k) =>
        assert forall j :: 1 <= j <= k + 1 ==> HitAt(order, layout, j) == HitAt(order[1..], layout, j - 1);
        Some(k + 1)
  }

  /** The scroll handler. */
  function OnScroll(s: NavState, scrollY: real, innerHeight: real, layout: map<string, Rect>): (r: NavState)
    ensures r.isOpen == s.isOpen
    ensures r.isScrolled <==> scrollY > ScrolledAbove
    ensures scrollY < HeroZone ==> r.activeSection == Hero
    ensures scrollY >= HeroZone ==>
      forall k :: 0 <= k < |Sections| && HitAt(Sections, layout, k) && NoHitBefore(Sections, layout, k) ==>
        r.activeSection == Sections[k]
    ensures scrollY >= HeroZone && (forall k :: 0 <= k < |Sections| ==> !HitAt(Sections, layout, k)) ==>
      r.activeSection == (if scrollY < innerHeight then Hero else s.activeSection)
  {
    var isScrolled := scrollY > ScrolledAbove;
    if scrollY < HeroZone then
      s.(isScrolled := isScrolled, activeSection := Hero)
    else
      match FirstHit(Sections, layout)
      case Some(k) => s.(isScrolled := isScrolled, activeSection := Sections[k])
      case None =>
        if scrollY < innerHeight then s.(isScrolled := isScrolled, activeSection := Hero)
        else s.(isScrolled := isScrolled)
  }

  /** Where a click sends the page. */
  datatype ScrollCommand = ScrollToTop | ScrollIntoView(selector: string) | NoScroll

  /** The click handler. `found` holds the selectors for which
      `document.querySelector` finds an element. */
  function HandleClick(s: NavState, href: string, found: set<string>): (r: (NavState, ScrollCommand))
    ensures !r.0.isOpen
    ensures r.0.isScrolled == s.isScrolled && r.0.activeSection == s.activeSection
    ensures href == "#" ==> r.1 == ScrollToTop
    ensures href != "#" ==> r.1 == (if href in found then ScrollIntoView(href) else NoScroll)
  {
    var closed := s.(isOpen := false);
    if href == "#" then (closed, ScrollToTop)
    else if href in found then (closed, ScrollIntoView(href))
    else (closed, NoScroll)
  }

  /** `s.slice(1)`. */
  function DropFirst(s: string): string
  {
    if |s| == 0 then s else s[1..]
  }

  /** A bar button is lit when its link points at the active section. */
  predicate NavItemHighlighted(activeSection: string, item: NavItem): (r: bool)
    ensures |item.href| >= 1 && item.href[0] == '#' ==> (r <==> item.href == "#" + activeSection)
  {
    activeSection == DropFirst(item.href)
  }

  /** The link a dot for section `id` carries: the top of the page for the
      hero, the section's anchor otherwise. */
  function HrefOf(id: string): string
  {
    if id == Hero then "#" else "#" + id
  }

  /** A dot is lit when it stands for the active section, which is when its
      link leads to that section. */
  predicate DotHighlighted(activeSection: string, dot: SectionDot): (r: bool)
    ensures dot in SectionDots ==> (r <==> IsDotId(activeSection) && dot.href == HrefOf(activeSection))
  {
    assert SectionDots[0].id == Hero;
    assert dot in SectionDots ==>
      dot == SectionDots[0] || dot == SectionDots[1] || dot == SectionDots[2] || dot == SectionDots[3];
    activeSection == dot.id
  }

  predicate IsDotId(a: string)
  {
    exists k :: 0 <= k < |SectionDots| && SectionDots[k].id == a
  }

  // ---------------------------------------------------------------------------
  // Properties

  /** The active section is always one with a dot, or the previous value: the
      handler never invents a section, and whenever the page is within the
      first screen it names one. */
  lemma {:induction false} ActiveIsKnown(s: NavState, scrollY: real, innerHeight: real, layout: map<string, Rect>)
    ensures var r := OnScroll(s, scrollY, innerHeight, layout);
      IsDotId(r.activeSection) || r.activeSection == s.activeSection
    ensures scrollY < innerHeight ==> IsDotId(OnScroll(s, scrollY, innerHeight, layout).activeSection)
  {
    var r := OnScroll(s, scrollY, innerHeight, layout);
    if r.activeSection == Hero {
      assert SectionDots[0].id == Hero;
    } else if scrollY >= HeroZone && FirstHit(Sections, layout).Some? {
      var k := FirstHit(Sections, layout).value;
      assert SectionDots[k + 1].id == Sections[k];
    }
  }

  /** A section wins only if every section before it in the order misses the
      probe line; in particular `about` wins whenever it is hit. */
  lemma {:induction false} EarlierSectionWins(scrollY: real, innerHeight: real, layout: map<string, Rect>, s: NavState)
    requires scrollY >= HeroZone
    requires HitAt(Sections, layout, 0)
    ensures OnScroll(s, scrollY, innerHeight, layout).activeSection == "about"
  {
  }

  /** Exactly one dot is lit for an active section with a dot. */
  lemma {:induction false} OneDotHighlighted(a: string, i: int, j: int)
    requires 0 <= i < |SectionDots| && 0 <= j < |SectionDots|
    requires DotHighlighted(a, SectionDots[i]) && DotHighlighted(a, SectionDots[j])
    ensures i == j
  {
  }

  /** A bar button is lit exactly when the dot for the same section is: the
      bar's hrefs are the dots' ids with a `#` in front. */
  lemma {:induction false} ItemMatchesDot(a: string, k: int)
    requires 0 <= k < |NavItems|
    ensures NavItems[k].href == SectionDots[k + 1].href
    ensures NavItemHighlighted(a, NavItems[k]) <==> DotHighlighted(a, SectionDots[k + 1])
  {
    assert DropFirst(NavItems[k].href) == SectionDots[k + 1].id;
  }

  /** The hero has a dot but no bar button: when it is active, no bar button is lit. */
  lemma {:induction false} HeroLightsNoItem(k: int)
    requires 0 <= k < |NavItems|
    ensures !NavItemHighlighted(Hero, NavItems[k])
  {
    assert DropFirst(NavItems[k].href) == Sections[k];
  }

  /** A click on a bar button whose section exists closes the menu and
      scrolls that section into view; once it straddles the probe line ahead
      of the sections before it, the scroll handler makes it active and
      lights both its button and its dot. */
  lemma {:induction false} ClickLightsItsSection(s: NavState, k: int, found: set<string>,
                                                 scrollY: real, innerHeight: real, layout: map<string, Rect>)
    requires 0 <= k < |NavItems| && NavItems[k].href in found
    requires scrollY >= HeroZone && HitAt(Sections, layout, k) && NoHitBefore(Sections, layout, k)
    ensures var c := HandleClick(s, NavItems[k].href, found);
      && !c.0.isOpen && c.1 == ScrollIntoView(NavItems[k].href)
      && var r := OnScroll(c.0, scrollY, innerHeight, layout);
         && !r.isOpen
         && NavItemHighlighted(r.activeSection, NavItems[k])
         && DotHighlighted(r.activeSection, SectionDots[k + 1])
  {
    var c := HandleClick(s, NavItems[k].href, found);
    assert NavItems[k].href != "#";
    var r := OnScroll(c.0, scrollY, innerHeight, layout);
    assert r.activeSection == Sections[k];
    ItemMatchesDot(r.activeSection, k);
    assert DropFirst(NavItems[k].href) == Sections[k];
  }

  /** The home dot scrolls to the top, where the hero is active and only the
      home dot is lit. */
  lemma {:induction false} HomeClickLightsHero(s: NavState, found: set<string>, innerHeight: real, layout: map<string, Rect>)
    ensures var c := HandleClick(s, SectionDots[0].href, found);
      && !c.0.isOpen && c.1 == ScrollToTop
      && var r := OnScroll(c.0, 0.0, innerHeight, layout);
         && DotHighlighted(r.activeSection, SectionDots[0])
         && forall k :: 0 <= k < |NavItems| ==> !NavItemHighlighted(r.activeSection, NavItems[k])
  {
    forall k | 0 <= k < |NavItems|
      ensures !NavItemHighlighted(Hero, NavItems[k])
    {
      HeroLightsNoItem(k);
    }
  }
}

=== FILE: scroll_bridge.dfy ===
/** The horizontal panel strip (components/HorizontalScrollBridge.tsx). The
    scroll trigger reports a progress in `[0, 1]` and snaps to multiples of
    `1 / (totalPanels - 1)`; the update callback rounds the progress to the
    nearest panel, stores it only when it changed, and sets the progress bar
    width. The counter below shows the active panel, counted from one, over
    the number of panels. */
module ScrollBridge {
  import opened Common

  datatype Panel = Panel(id: nat, title: string, subtitle: string, isLast: bool)

  const Panels: seq<Panel> := [
    Panel(1, "The Journey", "Continues...", false),
    Panel(2, "Building", "Excellence", false),
    Panel(3, "My", "Experience", true)
  ]

  /** `Math.round(progress * (totalPanels - 1))`: the nearest panel. */
  function ActivePanel(progress: real, totalPanels: nat): (r: int)
    ensures progress * (totalPanels - 1) as real - 0.5 < r as real <= progress * (totalPanels - 1) as real + 0.5
    ensures totalPanels >= 1 && 0.0 <= progress <= 1.0 ==> 0 <= r < totalPanels
    ensures progress == 0.0 ==> r == 0
    ensures totalPanels >= 1 && progress == 1.0 ==> r == totalPanels - 1
  {
    var x := progress * (totalPanels - 1) as real;
    if totalPanels >= 1 && 0.0 <= progress <= 1.0 then
      ScaledInRange(progress, (totalPanels - 1) as real);
      Round(x)
    else
      Round(x)
  }

  lemma ScaledInRange(p: real, n: real)
    requires 0.0 <= p <= 1.0 && n >= 0.0
    ensures 0.0 <= p * n <= n
  {
    MulMonotone(p, 1.0, n);
    MulMonotone(0.0, p, n);
  }

  /** The snap step handed to the scroll trigger. */
  function SnapStep(totalPanels: nat): real
    requires totalPanels >= 2
  {
    1.0 / (totalPanels - 1) as real
  }

  /** Every snap point `k / (totalPanels - 1)` selects panel `k`. */
  lemma {:induction false} SnapPointSelectsPanel(k: nat, totalPanels: nat)
    requires totalPanels >= 2 && k < totalPanels
    ensures ActivePanel(k as real * SnapStep(totalPanels), totalPanels) == k
  {
    var n := (totalPanels - 1) as real;
    assert k as real * (1.0 / n) * n == k as real;
  }

  /** More progress never selects an earlier panel. */
  lemma {:induction false} ActivePanelMonotone(p1: real, p2: real, totalPanels: nat)
    requires p1 <= p2 && totalPanels >= 1
    ensures ActivePanel(p1, totalPanels) <= ActivePanel(p2, totalPanels)
  {
    var n := (totalPanels - 1) as real;
    MulMonotone(p1, p2, n);
    assert p1 * (totalPanels - 1) as real <= p2 * (totalPanels - 1) as real;
    RoundMonotone(p1 * n, p2 * n);
  }

  /** No panel lies closer to the scaled progress than the active one: the
      rounding picks the nearest panel (the upper one on a tie). */
  lemma {:induction false} ActivePanelNearest(progress: real, totalPanels: nat, k: int)
    ensures var x := progress * (totalPanels - 1) as real;
      var r := ActivePanel(progress, totalPanels);
      Abs(r as real - x) <= Abs(k as real - x)
  {
    var x := progress * (totalPanels - 1) as real;
    var r := ActivePanel(progress, totalPanels);
    if k != r {
      assert k <= r - 1 || k >= r + 1;
    }
  }

  function Abs(x: real): real
  {
    if x < 0.0 then -x else x
  }

  /** What one `onUpdate` call does: the panel it computes, whether it stores
      it, and the progress bar width in percent. */
  datatype Update = Update(active: int, stored: bool, barWidthPercent: real)

  function OnUpdate(activePanel: int, progress: real, totalPanels: nat): (u: Update)
    ensures u.active == ActivePanel(progress, totalPanels)
    ensures u.barWidthPercent == progress * 100.0
    ensures u.stored <==> u.active != activePanel
    ensures 0.0 <= progress <= 1.0 ==> 0.0 <= u.barWidthPercent <= 100.0
    ensures totalPanels >= 1 && 0.0 <= progress <= 1.0 ==> 0 <= u.active < totalPanels
  {
    var next := ActivePanel(progress, totalPanels);
    Update(next, next != activePanel, progress * 100.0)
  }

  /** Storing the panel is what makes the next update quiet: an update at
      the same progress after one that stored stores nothing, and the panel
      is stored again only when the progress moves to another panel. */
  lemma {:induction false} UpdateSettles(activePanel: int, p: real, q: real, totalPanels: nat)
    ensures var u := OnUpdate(activePanel, p, totalPanels);
      var stored := if u.stored then u.active else activePanel;
      && stored == ActivePanel(p, totalPanels)
      && !OnUpdate(stored, p, totalPanels).stored
      && (OnUpdate(stored, q, totalPanels).stored <==> ActivePanel(q, totalPanels) != ActivePanel(p, totalPanels))
  {
  }

  /** The counter text, as a pair: the shown panel number and the panel count. */
  function Counter(activePanel: int): (int, nat)
  {
    (activePanel + 1, |Panels|)
  }

  /** With the strip's three panels, every progress shows a counter between
      `1 / 3` and `3 / 3`, and exactly one indicator dot is lit. */
  lemma CounterInRange(progress: real)
    requires 0.0 <= progress <= 1.0
    ensures var c := Counter(ActivePanel(progress, |Panels|));
      1 <= c.0 <= c.1 && c.1 == 3
    ensures var a := ActivePanel(progress, |Panels|);
      && 0 <= a < |Panels| && DotLit(a, a)
      && forall i :: 0 <= i < |Panels| && i != a ==> !DotLit(a, i)
  {
  }

  predicate DotLit(activePanel: int, index: int)
  {
    activePanel == index
  }
}

=== FILE: text_split.dfy ===
/** Splitting text for per-character and per-word animation: `splitText` in
    hooks/use-gsap.ts (`text.split('')` or `text.split(' ')`, words by
    default) and the `SplitText` component in
    components/HorizontalScrollBridge.tsx (one span per character, a space
    shown as a no-break space so that it keeps its width). A JavaScript
    string is modelled as a sequence of Dafny characters, which are Unicode
    scalar values: a character outside the Basic Multilingual Plane is one
    character here but two UTF-16 code units in JavaScript. */
module TextSplit {

  datatype SplitMode = Chars | Words

  const DefaultMode: SplitMode := Words
  const Space: char := ' '
  const NoBreakSpace: char := '\U{00A0}'

  /** `parts.join('')`. */
  function Concat(parts: seq<string>): string
    decreases |parts|
  {
    if |parts| == 0 then "" else parts[0] + Concat(parts[1..])
  }

  /** `parts.join(sep)`. */
  function Join(parts: seq<string>, sep: char): string
    decreases |parts|
  {
    if |parts| == 0 then ""
    else if |parts| == 1 then parts[0]
    else parts[0] + [sep] + Join(parts[1..], sep)
  }

  function Count(s: string, c: char): nat
    decreases |s|
  {
    if |s| == 0 then 0 else (if s[0] == c then 1 else 0) + Count(s[1..], c)
  }

  /** `text.split('')`. */
  function SplitChars(text: string): (r: seq<string>)
    ensures |r| == |text|
    ensures forall i :: 0 <= i < |r| ==> |r[i]| == 1
    ensures Concat(r) == text
    decreases |text|
  {
    if |text| == 0 then []
    else
      var rest := SplitChars(text[1..]);
      assert Concat([[text[0]]] + rest) == [text[0]] + Concat(rest);
      [[text[0]]] + rest
  }

  /** `text.split(' ')`: the maximal runs between spaces, empty runs
      included. */
  function SplitWords(text: string): (r: seq<string>)
    ensures |r| == Count(text, Space) + 1
    ensures forall i :: 0 <= i < |r| ==> Space !in r[i]
    ensures Join(r, Space) == text
    decreases |text|
  {
    if |text| == 0 then [""]
    else
      var rest := SplitWords(text[1..]);
      if text[0] == Space then
        assert Join([""] + rest, Space) == "" + [Space] + Join(rest, Space);
        [""] + rest
      else
        var r := [[text[0]] + rest[0]] + rest[1..];
        JoinExtendFirst(rest, text[0]);
        assert r == [[text[0]] + rest[0]] + rest[1..];
        r
  }

  /** Prefixing the first part prefixes the joined string. */
  lemma {:induction false} JoinExtendFirst(parts: seq<string>, c: char)
    requires |parts| >= 1
    ensures Join([[c] + parts[0]] + parts[1..], Space) == [c] + Join(parts, Space)
  {
    var rest := parts[1..];
    assert parts == [parts[0]] + rest;
    JoinCons([c] + parts[0], rest);
    JoinCons(parts[0], rest);
    if |rest| > 0 {
      assert ([c] + parts[0]) + [Space] + Join(rest, Space) == [c] + (parts[0] + [Space] + Join(rest, Space));
    }
  }

  lemma {:induction false} JoinCons(x: string, rest: seq<string>)
    ensures Join([x] + rest, Space) == if |rest| == 0 then x else x + [Space] + Join(rest, Space)
  {
    assert ([x] + rest)[1..] == rest;
  }

  /** `splitText(text, type)`. */
  function Split(text: string, mode: SplitMode): (r: seq<string>)
    ensures mode == Chars ==>
      && |r| == |text| && Concat(r) == text
      && forall i :: 0 <= i < |r| ==> r[i] == [text[i]]
    ensures mode == Words ==> Join(r, Space) == text && forall i :: 0 <= i < |r| ==> Space !in r[i]
  {
    match mode
    case Chars =>
      SplitCharsAt(text);
      SplitChars(text)
    case Words => SplitWords(text)
  }

  // ---------------------------------------------------------------------------
  // Round trips

  /** The character mode yields one piece per character and gives the text
      back when concatenated; the word mode gives it back when joined with
      single spaces. An empty text gives no characters but one empty word. */
  lemma {:induction false} SplitRoundTrip(text: string)
    ensures |Split(text, Chars)| == |text| && Concat(Split(text, Chars)) == text
    ensures Join(Split(text, DefaultMode), Space) == text
    ensures Split("", Chars) == [] && Split("", Words) == [""]
  {
  }

  lemma {:induction false} SplitWordWithoutSpace(w: string)
    requires Space !in w
    ensures SplitWords(w) == [w]
    decreases |w|
  {
    if |w| > 0 {
      SplitWordWithoutSpace(w[1..]);
      assert [w[0]] + w[1..] == w;
    }
  }

  lemma {:induction false} SplitWordThenSpace(w: string, t: string)
    requires Space !in w
    ensures SplitWords(w + [Space] + t) == [w] + SplitWords(t)
    decreases |w|
  {
    var s := w + [Space] + t;
    if |w| == 0 {
      assert s[1..] == t;
    } else {
      assert s[1..] == w[1..] + [Space] + t;
      SplitWordThenSpace(w[1..], t);
      assert [w[0]] + w[1..] == w;
    }
  }

  /** The other direction: space-free words joined with spaces split back into
      exactly those words, so `split(' ')` and `join(' ')` are inverse. */
  lemma {:induction false} JoinThenSplit(words: seq<string>)
    requires |words| >= 1
    requires forall i :: 0 <= i < |words| ==> Space !in words[i]
    ensures SplitWords(Join(words, Space)) == words
    decreases |words|
  {
    if |words| == 1 {
      SplitWordWithoutSpace(words[0]);
    } else {
      JoinThenSplit(words[1..]);
      SplitWordThenSpace(words[0], Join(words[1..], Space));
    }
  }

  // ---------------------------------------------------------------------------
  // Character spans

  /** What one character's span shows. */
  function Shown(c: char): char
  {
    if c == Space then NoBreakSpace else c
  }

  /** The children of the spans `SplitText` renders, in order. */
  function Spans(text: string): (r: seq<string>)
    ensures |r| == |text|
    ensures forall i :: 0 <= i < |r| ==> |r[i]| == 1 && Space !in r[i]
  {
    seq(|text|, i requires 0 <= i < |text| => [Shown(text[i])])
  }

  /** Reads a rendered character back: a no-break space counts as a space. */
  function Unshown(c: char): char
  {
    if c == NoBreakSpace then Space else c
  }

  /** The spans are the character split with each space made unbreakable, and
      reading them back gives the text again as long as the text has no
      no-break space of its own. */
  lemma {:induction false} SpansRenderSplit(text: string)
    ensures forall i :: 0 <= i < |text| ==>
      Spans(text)[i] == [Shown(SplitChars(text)[i][0])] && SplitChars(text)[i] == [text[i]]
    ensures NoBreakSpace !in text ==>
      forall i :: 0 <= i < |text| ==> Unshown(Spans(text)[i][0]) == text[i]
  {
    SplitCharsAt(text);
  }

  lemma {:induction false} SplitCharsAt(text: string)
    ensures forall i :: 0 <= i < |text| ==> SplitChars(text)[i] == [text[i]]
    decreases |text|
  {
    if |text| > 0 {
      SplitCharsAt(text[1..]);
    }
  }
}
